=== FILE: README.md ===
# AnimationWrapLayout in Dafny

A model of `AnimationWrapLayout`, an Android `ViewGroup` that arranges its
children left to right in rows and wraps to a new row when the next child
does not fit. Children can be added and removed with animations: the other
children glide to their new places (translate animations), and the added or
removed view fades in or out (alpha animations).

The model has two parts, one per part of the class.

- **The row packer** (`ChildrenMeasure`). `RowPacker.MeasureView` is one
  `measureView` step over an accumulator of row count, column count, row top,
  content height and row cursor.
  - A layout pass is a fold of that step over a sequence of *slots*. There is
    one slot per child, plus one for the view whose insertion is pending,
    packed in front of child `max(0, position)`.
  - `Session.Measure` is `measure()` in its three modes: default,
    `ignoreAddedView()` and `without(view)`. It yields one optional layout
    per child index, as the `SparseArray` does.
  - `Session.MeasureLoop` is the loop of `measure()` as written, including
    its step back to revisit a child. It is proved to compute `Measure`.
  - `PackerGeometry` proves the geometry of a pass: row numbering, no
    overlap within or between rows, where rows start, and how the content
    height and `getTotalHeight` come out.
- **The transitions** (`addViewWithAnimation`, `removeViewWithAnimation`) are
  modelled as an event-driven state machine.
  - The state holds the children, the insertion guard (`mAddedViewContainer`),
    the insertion's waiting list (`animatedViewList`), the running movers and
    fades, and the layout each finished mover applied.
  - Events are the two calls and the end of any running animation, in any
    order.
  - `Transitions.Inv` is preserved by every event. The model proves when an
    insertion commits, what clears the guard, where the movers go, and that
    an insertion into a layout whose children are all GONE blocks every later
    insertion for good.

Views are records; a `View`'s `id` stands for object identity. Integers are
unbounded.

Details of the code that the model keeps:

- **Cursor and spacing.** The row cursor starts at the left padding. The
  horizontal spacing is added before every view but the first in a row.
- **Wrap test.** It counts the view's width, the spacing, its right margin and
  the right padding, but not its left margin.
- **Right edge.** It is `cursor + width + rightMargin`, so a layout is
  `width + right - left` wide.
- **Pending view.** It is packed with its own measured size.
- **Layout sets.** They hold one entry per child index, empty for a child
  that is GONE or being removed.
- **Movers.** Every child that is not GONE and has a layout gets a mover,
  whether or not it has to move, because `translateAnimation` always returns
  true.
- **Guard release.** After a non-empty insertion the guard is cleared when
  the last mover ends, before the fade-in. After an insertion into an empty
  layout it is cleared when the fade-in ends.
- **Removal.** It is always accepted, also while an insertion is pending and
  also for a view that is not a child.

Some behaviour of the code that looks unintended is stated as behaviour, not
corrected:

- `Transitions.NegativePositionMismatch`: a negative position makes the movers
  leave room at the front, but the view is then appended at the end.
- `Transitions.EmptyInsertPacksTwice`: after an insertion into an empty
  layout at a position of at most 0, every pass that does not ignore the
  pending view packs the view twice until its fade-in ends. That covers the
  passes of `onMeasure`, `addViewWithAnimation` and
  `removeViewWithAnimation`, but not the pass of `onLayout`.
- `Transitions.NothingToMoveStalls` / `Transitions.StalledForever`: an
  insertion into a layout whose children are all GONE is never committed.
- `Transitions.EmptyInsertPastEndStalls`: an insertion into an empty layout
  at a positive position throws in `addView` after taking the guard, which
  then blocks every later insertion.

## Model

All source cells refer to `animationwraplayout/src/main/java/com/github/sjnyag/AnimationWrapLayout.java`.

| member | source | states |
|---|---|---|
| RowPacker.SpacingOf | animationwraplayout/src/main/java/com/github/sjnyag/AnimationWrapLayout.java:236-241 | Neither spacing is negative when every spacing attribute that is present is non-negative. The body keeps the defaults: 4 for an absent attribute, and 0 for a layout built from code. |
| RowPacker.ConfigOf | animationwraplayout/src/main/java/com/github/sjnyag/AnimationWrapLayout.java:28-40 | A layout built from code or from non-negative attributes, with non-negative paddings, meets the non-negativity every geometry lemma assumes, and packs to the container width it is given. |
| RowPacker.MeasureView | animationwraplayout/src/main/java/com/github/sjnyag/AnimationWrapLayout.java:322-357 | One step places the view once. It either opens exactly one row or joins the current row. The first view of a pass opens row 1 whatever its width. A later view stays in the row iff cursor + width + spacing + right margin + right padding <= container width, and then the cursor first advances by one spacing. A new row resets the cursor to the left padding. From row 2 on, a new row's top is the old height plus the vertical spacing. The layout sits at cursor + left margin and row top + top margin. The cursor ends after the margin box. The height never shrinks and covers the margin box. |
| RowPacker.LayoutSize | animationwraplayout/src/main/java/com/github/sjnyag/AnimationWrapLayout.java:350-353 | A layout is width + right − left margin wide and height + bottom − top margin tall. Without layout parameters it has exactly the measured size. |
| RowPacker.PackSlots | animationwraplayout/src/main/java/com/github/sjnyag/AnimationWrapLayout.java:291-309 | A pass yields one entry per slot. Height and row count never decrease, and row and column counts stay consistent. |
| RowPacker.PackEntries | animationwraplayout/src/main/java/com/github/sjnyag/AnimationWrapLayout.java:299-306 | A slot's entry is present exactly when the slot takes part. The pending view always takes part. A child takes part unless it is GONE or is the view being removed. |
| PackerGeometry.PackGeometry | animationwraplayout/src/main/java/com/github/sjnyag/AnimationWrapLayout.java:333-355 | For non-negative sizes, a whole pass from `init()` keeps every row, cursor, top and height fact for every placed view and every ordered pair of placed views. |
| PackerGeometry.ConstructedPassGeometry | animationwraplayout/src/main/java/com/github/sjnyag/AnimationWrapLayout.java:28-40 | Every layout built from code or from non-negative attributes, with non-negative paddings and sizes, has all the pass geometry of `PackGeometry`. |
| PackerGeometry.LayoutsDoNotOverlap | animationwraplayout/src/main/java/com/github/sjnyag/AnimationWrapLayout.java:336-355 | Row numbers never go back. In one row, layouts share the row top and are at least one horizontal spacing apart. A later row's layouts start at least one vertical spacing below every earlier row's layouts. |
| PackerGeometry.WideViewIsAlone | animationwraplayout/src/main/java/com/github/sjnyag/AnimationWrapLayout.java:333-343 | A view wider than the container shares its row with no other placed view. |
| PackerGeometry.RowsNeverOutnumberViews | animationwraplayout/src/main/java/com/github/sjnyag/AnimationWrapLayout.java:333-343 | There are never more rows than placed views, and at least one row once anything is placed. A pass that places nothing leaves the accumulator unchanged. |
| PackerGeometry.EveryRowHoldsAView | animationwraplayout/src/main/java/com/github/sjnyag/AnimationWrapLayout.java:333-343 | No row is empty: every row a pass opens holds at least one view placed in it. |
| PackerGeometry.TotalHeightOfPass | animationwraplayout/src/main/java/com/github/sjnyag/AnimationWrapLayout.java:311-316 | `getTotalHeight` is 0 when nothing was placed. Otherwise it is the content height plus the bottom padding. It is at least both paddings and covers every margin box plus the bottom padding. It is either exactly both paddings or exactly some view's margin-box bottom plus the bottom padding. |
| PackerGeometry.SkippedSlotIsAbsent | animationwraplayout/src/main/java/com/github/sjnyag/AnimationWrapLayout.java:300-305 | A GONE or removed child consumes no space. The pass equals the pass without that slot, with an empty entry in its place. |
| PackerGeometry.PackPrefix | animationwraplayout/src/main/java/com/github/sjnyag/AnimationWrapLayout.java:294-307 | The entries of the first k slots do not depend on any later slot. |
| PackerGeometry.SameViewsSamePass | animationwraplayout/src/main/java/com/github/sjnyag/AnimationWrapLayout.java:295-302 | Packing a view as the pending view or as a child makes no difference to the pass, as long as it takes part in both. |
| PackerGeometry.RemovingAbsentViewIsMoot | animationwraplayout/src/main/java/com/github/sjnyag/AnimationWrapLayout.java:301 | `without(v)` for a view that is not a child changes nothing. |
| Session.Slots | animationwraplayout/src/main/java/com/github/sjnyag/AnimationWrapLayout.java:293-298 | A pass visits one more slot than there are children exactly when it packs the pending view. |
| Session.SlotsOrder | animationwraplayout/src/main/java/com/github/sjnyag/AnimationWrapLayout.java:291-309 | The pass visits every child once, in order. When packed, the pending view comes in front of child max(0, position) and nowhere else. It is packed only when there is one, it is not ignored, and position < count. |
| Session.Measure | animationwraplayout/src/main/java/com/github/sjnyag/AnimationWrapLayout.java:291-309 | A pass has one entry per child index. An entry is present exactly for the children that are not GONE and not the removed view. |
| Session.EntryOfChild | animationwraplayout/src/main/java/com/github/sjnyag/AnimationWrapLayout.java:294-306 | Child i's entry is the placement of the slot in which the pass visits child i. That slot is i, or i + 1 once the pending view has been packed. |
| Session.UnpackedPendingIsAbsent | animationwraplayout/src/main/java/com/github/sjnyag/AnimationWrapLayout.java:293-295 | An ignored pending view, or one whose position is at or past the count, leaves the pass exactly as if there were none. |
| Session.PendingKeepsEarlierLayouts | animationwraplayout/src/main/java/com/github/sjnyag/AnimationWrapLayout.java:294-298 | Packing the pending view leaves the entries of the children before its position unchanged. |
| Session.WithoutIsAbsence | animationwraplayout/src/main/java/com/github/sjnyag/AnimationWrapLayout.java:286-305 | A pass `without(v)`, for a child v present once, equals the pass over the other children with an empty entry at v's index. |
| Session.OnMeasure | animationwraplayout/src/main/java/com/github/sjnyag/AnimationWrapLayout.java:59-63 | The width is the resolved width. The height is the pass's total height, unless an insertion is pending and the previous measured height is larger. While one is pending the height never drops below the previous one. |
| Session.MeasuredHeightCoversChildren | animationwraplayout/src/main/java/com/github/sjnyag/AnimationWrapLayout.java:59-63 | The measured height leaves room for every laid-out child's margin box plus the bottom padding. |
| Session.OnLayout | animationwraplayout/src/main/java/com/github/sjnyag/AnimationWrapLayout.java:66-81 | `onLayout` applies the pass that ignores the pending view. It equals the pass with no pending view, and applies a layout to exactly the children that are not GONE. |
| Session.MeasureLoop | animationwraplayout/src/main/java/com/github/sjnyag/AnimationWrapLayout.java:291-309 | The loop of `measure()`, with its step back after packing the pending view, computes exactly `Measure`. |
| Session.VisitChild | animationwraplayout/src/main/java/com/github/sjnyag/AnimationWrapLayout.java:300-305 | A child's entry is present iff it is not GONE and not the removed view. Visiting it extends the pass by that entry. |
| Transitions.InsertAt | animationwraplayout/src/main/java/com/github/sjnyag/AnimationWrapLayout.java:139 | `addView` puts the view at the index, with the children before and after it unchanged. A negative index appends. The children gain exactly that view. |
| Transitions.RemoveView | animationwraplayout/src/main/java/com/github/sjnyag/AnimationWrapLayout.java:178 | Removing a view that is absent changes nothing. Removing one that is present shortens the list by one. |
| Transitions.RemoveViewCounts | animationwraplayout/src/main/java/com/github/sjnyag/AnimationWrapLayout.java:134-136 | Removal takes exactly one occurrence of the view out of the multiset. |
| Transitions.RemoveViewAtFirst | animationwraplayout/src/main/java/com/github/sjnyag/AnimationWrapLayout.java:178 | Removal takes out the first occurrence and keeps the order of the rest. |
| Transitions.InsertThenRemove | animationwraplayout/src/main/java/com/github/sjnyag/AnimationWrapLayout.java:139 | Adding a view that is not a child, then removing it, restores the children. |
| Transitions.MoversFor | animationwraplayout/src/main/java/com/github/sjnyag/AnimationWrapLayout.java:120-150 | Every child that is not GONE and has a layout gets a mover toward that layout, since `translateAnimation` always reports true. Every mover belongs to such a child and its layout. |
| Transitions.MovingIndices | animationwraplayout/src/main/java/com/github/sjnyag/AnimationWrapLayout.java:120-128 | The children the loop gives a mover are listed by index in strictly increasing order. An index is listed exactly when its child is not GONE and has a layout. |
| Transitions.MoversFollowIndices | animationwraplayout/src/main/java/com/github/sjnyag/AnimationWrapLayout.java:120-150 | The movers correspond one to one and in order to those indices. Mover j belongs to child idx[j] and aims at that child's layout. So every such child gets exactly one mover, in child order, and no other child gets any. |
| Transitions.NoLaidOutChildNoMovers | animationwraplayout/src/main/java/com/github/sjnyag/AnimationWrapLayout.java:120-128 | Children that are all GONE start no mover. |
| Transitions.InsertMoversAim | animationwraplayout/src/main/java/com/github/sjnyag/AnimationWrapLayout.java:107-150 | An insertion's movers carry each child that is not GONE to its layout in the default-mode pass taken while the insertion is pending. There are none exactly when every child is GONE. |
| Transitions.RemoveMoversAim | animationwraplayout/src/main/java/com/github/sjnyag/AnimationWrapLayout.java:156-174 | A removal's movers carry each other child that is not GONE to its layout in the `without(view)` pass, which still packs a pending insertion. The removed view gets no mover. |
| Transitions.Add | animationwraplayout/src/main/java/com/github/sjnyag/AnimationWrapLayout.java:98-153 | An insertion returns true iff none is pending and the layout is non-empty or the position is at most 0. While one is pending nothing changes. Otherwise it takes the guard. Into an empty layout at a positive position `addView` throws and nothing else changes. Into an empty layout otherwise, the view is added at once and starts a fade-in that will clear the guard, with the waiting list and the movers unchanged. Into a non-empty layout the children and fades stay, and the movers of the default-mode pass taken with the insertion pending all start, with their children as the waiting list. |
| Transitions.Remove | animationwraplayout/src/main/java/com/github/sjnyag/AnimationWrapLayout.java:155-182 | A removal is always accepted. It starts the `without(view)` movers and a fade-out, and changes neither the children, the guard nor the waiting list. |
| Transitions.MoverEnd | animationwraplayout/src/main/java/com/github/sjnyag/AnimationWrapLayout.java:129-147 | A mover's end applies its target. An insertion's mover also takes its child off the waiting list. If the list is then empty, it clears the guard, adds the captured view at the captured position and fades it in. |
| Transitions.FadeEnd | animationwraplayout/src/main/java/com/github/sjnyag/AnimationWrapLayout.java:112-117 | A fade-out's end removes its view from the children. A fade-in's end clears the guard only for an insertion into an empty layout. Nothing else changes. |
| Transitions.AddKeepsInv | animationwraplayout/src/main/java/com/github/sjnyag/AnimationWrapLayout.java:98-153 | Both kinds of insertion preserve the invariant. The waiting list counts exactly the insertion movers, which all belong to the pending insertion. At most one fade releases the guard, and only while it is held and no insertion mover runs. |
| Transitions.RemoveKeepsInv | animationwraplayout/src/main/java/com/github/sjnyag/AnimationWrapLayout.java:155-182 | A removal preserves the invariant, even while an insertion is pending. |
| Transitions.MoverEndKeepsInv | animationwraplayout/src/main/java/com/github/sjnyag/AnimationWrapLayout.java:129-147 | The end of any mover preserves the invariant, whatever the order in which movers end. |
| Transitions.FadeEndKeepsInv | animationwraplayout/src/main/java/com/github/sjnyag/AnimationWrapLayout.java:112-117 | The end of any fade preserves the invariant. |
| Transitions.StepKeepsInv | animationwraplayout/src/main/java/com/github/sjnyag/AnimationWrapLayout.java:98-182 | Every event preserves the invariant. |
| Transitions.RunKeepsInv | animationwraplayout/src/main/java/com/github/sjnyag/AnimationWrapLayout.java:98-182 | Every sequence of events preserves the invariant. |
| Transitions.IdleRunKeepsInv | animationwraplayout/src/main/java/com/github/sjnyag/AnimationWrapLayout.java:98-182 | Every state reached by any sequence of events from a layout with nothing in flight has the invariant. |
| Transitions.LastMoverCommits | animationwraplayout/src/main/java/com/github/sjnyag/AnimationWrapLayout.java:134-145 | An insertion commits at the end of its last mover and at no other, whatever the order. Commit means the guard clears, the view is added at the captured position and it fades in to its original alpha. |
| Transitions.GuardClearedOnlyByCommitOrFade | animationwraplayout/src/main/java/com/github/sjnyag/AnimationWrapLayout.java:110-145 | Only the end of an insertion's last mover, or of the fade-in after an insertion into an empty layout, clears the guard. |
| Transitions.NothingToMoveStalls | animationwraplayout/src/main/java/com/github/sjnyag/AnimationWrapLayout.java:120-151 | An insertion into a non-empty layout whose children are all GONE is accepted but starts nothing. The guard stays held with nothing to release it. |
| Transitions.EmptyInsertPastEndStalls | animationwraplayout/src/main/java/com/github/sjnyag/AnimationWrapLayout.java:102-111 | An insertion into an empty layout at a positive position is not accepted, yet leaves the guard held with nothing to release it. |
| Transitions.StalledStep | animationwraplayout/src/main/java/com/github/sjnyag/AnimationWrapLayout.java:98-101 | A stalled layout stays stalled after any event. |
| Transitions.StalledForever | animationwraplayout/src/main/java/com/github/sjnyag/AnimationWrapLayout.java:98-101 | Once stalled, every later insertion is refused, after any sequence of events. |
| Transitions.EmptyInsertPacksTwice | animationwraplayout/src/main/java/com/github/sjnyag/AnimationWrapLayout.java:110-118 | After an insertion at position <= 0 into an empty layout, the view is a child while the guard still holds it, so a pass packs it twice. |
| Transitions.InsertTargetsMatchFinalLayout | animationwraplayout/src/main/java/com/github/sjnyag/AnimationWrapLayout.java:129-139 | For 0 <= position < count and a view that is not GONE, the movers' targets are exactly the layouts of the children after the commit, and the content height is unchanged by the commit. |
| Transitions.PackedAsCommitted | animationwraplayout/src/main/java/com/github/sjnyag/AnimationWrapLayout.java:293-298 | Packing the pending view at its position is the same pass as packing the children once the view is inserted there. |
| Transitions.NegativePositionMismatch | animationwraplayout/src/main/java/com/github/sjnyag/AnimationWrapLayout.java:293-298 | With a negative position, the pass packs the pending view in front of every child, yet `addView` appends it after the last child. |
| Transitions.RemoveTargetsMatchFinalLayout | animationwraplayout/src/main/java/com/github/sjnyag/AnimationWrapLayout.java:156-178 | For a child present once and no pending insertion, the removal's movers target exactly the layouts after the fade-out's `removeView`, and the content height is the same. |
| Transitions.RemovalCompletesOnFadeOut | animationwraplayout/src/main/java/com/github/sjnyag/AnimationWrapLayout.java:175-180 | A removal's fade-out end removes the view from the children, and leaves the guard and the running movers as they are. |

## Left out

- **Android measurement.** `MeasureSpec`, `resolveSize` and the children's
  `measure` calls are not modelled. Measured sizes are fields of `View`.
  `OnMeasure` takes the resolved width and the previous measured height as
  parameters.
- **Parameters as inputs.** Attribute parsing and the `LayoutParams`
  constructors are not modelled; `SpacingOf` keeps only the defaults. The
  spacings, paddings and container width are fields of `Config`, and margins
  are an optional field of `View`.
- **Animation machinery.** Durations, interpolation and listener plumbing are
  not modelled. Each animation is a record whose end is a later event, in any
  order. Starting a second translate animation on a child that is still
  moving does not cancel the first mover in the model. Both ends are
  delivered as separate events.
- **Alpha.** It is an opaque `real` recorded for the fade-in. `setAlpha(0)`
  before the insertion is not modelled, because views carry no alpha.
- **`applyTo` side effects.** Only a mover's end records its target, in
  `placed`. The pending view's layout inside `measure()` and `onLayout`'s
  application are returned values, not state.
- **`requestLayout` and `synchronized`.** They have no effect on the logic.
- **Event interleaving.** `onMeasure` and `onLayout` are functions of a
  state, not events of the state machine.
- `Transitions.InsertAt`: treats an index greater than the child count as an
  append, where the host's `addView` throws an index error. This matters only
  at the commit of a non-empty insertion whose position is past the end. There
  the exception is thrown inside an animation callback, outside any caller.
  An empty layout at a positive position is modelled as the throw, by
  `Transitions.EmptyInsertPastEndStalls`.
- `Transitions.InsertAt`: does not model the host's parent check. `addView`
  throws `IllegalStateException` for a view that already has a parent, and
  `View` in this model has no parent.
  - A view that belongs to another layout, inserted into an empty layout,
    throws at line 111 of `AnimationWrapLayout.java` after line 102 has taken the guard. That leaves a stall
    like `Transitions.EmptyInsertPastEndStalls`, which the model cannot reach.
  - A view that is already a child of this layout, inserted into a non-empty
    layout, is accepted in both the code and the model. At the commit, line
    138 clears the guard and line 139 then throws inside the animation
    callback, so the children stay as they were and no fade-in starts. The
    model instead adds a second copy of the view and fades it in.
- **Foreign layout parameters.** `measureView` casts every view it packs to
  this layout's own `LayoutParams` class. `View.params` is either absent or
  margins, so the model cannot represent a view with parameters of another
  class.
  - A pending view with such parameters makes the call throw
    `ClassCastException` after the guard is taken, whenever a pass packs it.
  - A child gets converted parameters when it is added, through
    `checkLayoutParams` and `generateLayoutParams`. But a later
    `setLayoutParams` on a child does not pass that check. A child whose
    parameters are later replaced by another class makes every pass throw:
    in `onMeasure`, `onLayout`, and both animated calls.
- **32-bit wrap-around.** Integers are unbounded, so overflow of `int`
  arithmetic in `measureView` is not modelled.
- `Session.WithoutIsAbsence`: stated only with no pending insertion and the
  removed view present once among the children.
- `Transitions.RemoveTargetsMatchFinalLayout`: stated only with no pending
  insertion and the removed view present once. With a pending insertion, the
  targets also leave room for the pending view.
- `Transitions.InsertTargetsMatchFinalLayout`: stated only for
  0 <= position < count and a view that is not GONE. A negative position is
  covered by `Transitions.NegativePositionMismatch`. A GONE pending view is
  packed while pending but takes no space once added.
- **The demo activity.** `MainActivity` is not part of this model.

=== FILE: packer_geometry.dfy ===
/**
  Properties of a whole packing pass started from `init()`: row numbering,
  non-overlap of margin boxes within a row and between rows, where rows start,
  how the content height is accounted, and that a slot which takes no part
  in the pass is the same as a slot that is not there.
 */
module PackerGeometry {
  import opened Wrappers
  import opened Views
  import opened RowPacker

  /** The row number the pass has reached after each slot; for a placed slot,
      the row it was placed in. */
  function Rows(cfg: Config, a: Acc, slots: seq<Slot>, removed: Option<View>): (rows: seq<nat>)
    ensures |rows| == |slots|
    decreases |slots|
  {
    if |slots| == 0 then []
    else Rows(cfg, a, slots[..|slots| - 1], removed) + [PackSlots(cfg, a, slots, removed).acc.rowCount]
  }

  predicate AllNonNegative(slots: seq<Slot>) {
    forall i :: 0 <= i < |slots| ==> NonNegativeView(slots[i].view)
  }

  /** What holds of a view `v` placed at `l` in row `row`, measured against
      the accumulator `a` of a later point of the same pass. */
  predicate SlotFacts(cfg: Config, a: Acc, v: View, l: Layout, row: nat) {
    && 1 <= row <= a.rowCount
    && cfg.paddingLeft <= Cursor(v, l)
    && l.r == Cursor(v, l) + v.measuredWidth + MarginsOf(v).right
    && l.b == RowTop(v, l) + v.measuredHeight + MarginsOf(v).bottom
    && (row == 1 ==> RowTop(v, l) == cfg.paddingTop)
    && BoxBottom(v, l) <= a.height
    && (row < a.rowCount ==> BoxBottom(v, l) + cfg.eachMarginHeight <= a.top)
    && (row == a.rowCount ==> BoxRight(v, l) <= a.rowWidth && RowTop(v, l) == a.top)
  }

  /** What holds of an accumulator reached from `init()`. */
  predicate AccFacts(cfg: Config, a: Acc) {
    && WellFormed(a)
    && cfg.paddingTop <= a.top <= a.height
    && (a.rowCount <= 1 ==> a.top == cfg.paddingTop)
    && (a.rowCount > 0 ==> a.rowWidth >= cfg.paddingLeft)
  }

  /** How two views placed in order relate: rows never go back; in one row
      they share the row top, their margin boxes are separated by the
      horizontal spacing, and both fit in the container together; a later
      row starts at least one vertical spacing below the earlier margin box. */
  predicate PairFacts(cfg: Config, vi: View, li: Layout, ri: nat, vj: View, lj: Layout, rj: nat) {
    && ri <= rj
    && (ri == rj ==>
          && RowTop(vi, li) == RowTop(vj, lj)
          && BoxRight(vi, li) + cfg.eachMarginWidth <= Cursor(vj, lj)
          && vi.measuredWidth + vj.measuredWidth <= cfg.rowMaxWidth)
    && (ri < rj ==> BoxBottom(vi, li) + cfg.eachMarginHeight <= RowTop(vj, lj))
  }

  /** Slot `i` of pass `p` received a layout. */
  predicate IsPlaced(p: Pass, i: int) {
    0 <= i < |p.placements| && p.placements[i].Some?
  }

  /** Every fact above, for a pass `p` over `slots` with row numbers `rows`. */
  ghost predicate GeometryOf(cfg: Config, slots: seq<Slot>, p: Pass, rows: seq<nat>) {
    && |p.placements| == |slots| == |rows|
    && AccFacts(cfg, p.acc)
    && (p.acc.rowCount == 0 ==> forall i :: 0 <= i < |slots| ==> p.placements[i].None?)
    && (forall i :: IsPlaced(p, i) ==>
          SlotFacts(cfg, p.acc, slots[i].view, p.placements[i].value, rows[i]))
    && (forall i, j :: 0 <= i < j < |slots| && IsPlaced(p, i) && IsPlaced(p, j) ==>
          PairFacts(cfg, slots[i].view, p.placements[i].value, rows[i],
                    slots[j].view, p.placements[j].value, rows[j]))
    && (p.acc.height == cfg.paddingTop ||
        exists i :: IsPlaced(p, i) && p.acc.height == BoxBottom(slots[i].view, p.placements[i].value))
  }

  /** Every fact above, for the pass from `init()` over `slots`. */
  ghost predicate Geometry(cfg: Config, slots: seq<Slot>, removed: Option<View>) {
    GeometryOf(cfg, slots, PackSlots(cfg, Init(cfg), slots, removed), Rows(cfg, Init(cfg), slots, removed))
  }

  /** A view placed earlier keeps its facts when one more view is packed. */
  lemma EarlierSlotKeepsFacts(cfg: Config, a: Acc, v: View, l: Layout, row: nat, w: View)
    requires NonNegativeConfig(cfg) && NonNegativeView(w)
    requires AccFacts(cfg, a) && SlotFacts(cfg, a, v, l, row)
    ensures SlotFacts(cfg, MeasureView(cfg, a, w).acc, v, l, row)
  {
    var m := MeasureView(cfg, a, w);
    if m.acc.rowCount != a.rowCount {
      assert m.acc.rowCount > 1;
      assert m.acc.top == a.height + cfg.eachMarginHeight;
    } else {
      assert !IsFirst(a);
      assert Cursor(w, m.layout) == a.rowWidth + cfg.eachMarginWidth;
    }
  }

  /** The view just packed has its facts, and the accumulator keeps its own. */
  lemma NewSlotHasFacts(cfg: Config, a: Acc, w: View)
    requires NonNegativeConfig(cfg) && NonNegativeView(w) && AccFacts(cfg, a)
    ensures var m := MeasureView(cfg, a, w);
      && AccFacts(cfg, m.acc)
      && SlotFacts(cfg, m.acc, w, m.layout, m.acc.rowCount)
  {
    var m := MeasureView(cfg, a, w);
    if m.acc.rowCount == a.rowCount {
      assert !IsFirst(a);
      assert a.rowCount > 0;
    }
  }

  /** An earlier placed view and the view just packed are in order. */
  lemma NewPairHasFacts(cfg: Config, a: Acc, v: View, l: Layout, row: nat, w: View)
    requires NonNegativeConfig(cfg) && NonNegativeView(w) && NonNegativeView(v)
    requires AccFacts(cfg, a) && SlotFacts(cfg, a, v, l, row)
    ensures var m := MeasureView(cfg, a, w);
      PairFacts(cfg, v, l, row, w, m.layout, m.acc.rowCount)
  {
    var m := MeasureView(cfg, a, w);
    if m.acc.rowCount == a.rowCount {
      assert !IsFirst(a);
      assert Fits(cfg, a, w);
      assert Cursor(w, m.layout) == a.rowWidth + cfg.eachMarginWidth;
    } else {
      assert m.acc.rowCount > 1;
    }
  }

  /** Packing one more view keeps the geometry. */
  lemma PlacedStepKeepsGeometry(cfg: Config, pre: seq<Slot>, p0: Pass, rows0: seq<nat>, w: Slot)
    requires NonNegativeConfig(cfg) && AllNonNegative(pre + [w])
    requires GeometryOf(cfg, pre, p0, rows0)
    ensures var m := MeasureView(cfg, p0.acc, w.view);
      GeometryOf(cfg, pre + [w], Pass(m.acc, p0.placements + [Some(m.layout)]), rows0 + [m.acc.rowCount])
  {
    var slots := pre + [w];
    var n := |slots|;
    var m := MeasureView(cfg, p0.acc, w.view);
    var p := Pass(m.acc, p0.placements + [Some(m.layout)]);
    var rows := rows0 + [m.acc.rowCount];
    assert slots[n - 1] == w;
    assert NonNegativeView(w.view);
    NewSlotHasFacts(cfg, p0.acc, w.view);
    forall i | IsPlaced(p, i)
      ensures SlotFacts(cfg, p.acc, slots[i].view, p.placements[i].value, rows[i])
    {
      if i < n - 1 {
        assert IsPlaced(p0, i) && pre[i] == slots[i];
        EarlierSlotKeepsFacts(cfg, p0.acc, slots[i].view, p.placements[i].value, rows[i], w.view);
      }
    }
    forall i, j | 0 <= i < j < n && IsPlaced(p, i) && IsPlaced(p, j)
      ensures PairFacts(cfg, slots[i].view, p.placements[i].value, rows[i],
                        slots[j].view, p.placements[j].value, rows[j])
    {
      assert IsPlaced(p0, i) && pre[i] == slots[i];
      assert NonNegativeView(slots[i].view);
      if j < n - 1 {
        assert IsPlaced(p0, j) && pre[j] == slots[j];
      } else {
        NewPairHasFacts(cfg, p0.acc, slots[i].view, p.placements[i].value, rows[i], w.view);
      }
    }
    if p.acc.height != cfg.paddingTop && p.acc.height == p0.acc.height {
      var k :| IsPlaced(p0, k) && p0.acc.height == BoxBottom(pre[k].view, p0.placements[k].value);
      assert IsPlaced(p, k) && pre[k] == slots[k];
    } else if p.acc.height != cfg.paddingTop {
      assert IsPlaced(p, n - 1);
    }
  }

  /** A slot that takes no part in the pass keeps the geometry. */
  lemma SkippedStepKeepsGeometry(cfg: Config, pre: seq<Slot>, p0: Pass, rows0: seq<nat>, w: Slot)
    requires GeometryOf(cfg, pre, p0, rows0)
    ensures GeometryOf(cfg, pre + [w], Pass(p0.acc, p0.placements + [None]), rows0 + [p0.acc.rowCount])
  {
    var slots := pre + [w];
    var n := |slots|;
    var p := Pass(p0.acc, p0.placements + [None]);
    var rows := rows0 + [p0.acc.rowCount];
    forall i | IsPlaced(p, i)
      ensures SlotFacts(cfg, p.acc, slots[i].view, p.placements[i].value, rows[i])
    {
      assert IsPlaced(p0, i) && pre[i] == slots[i];
    }
    forall i, j | 0 <= i < j < n && IsPlaced(p, i) && IsPlaced(p, j)
      ensures PairFacts(cfg, slots[i].view, p.placements[i].value, rows[i],
                        slots[j].view, p.placements[j].value, rows[j])
    {
      assert IsPlaced(p0, i) && pre[i] == slots[i];
      assert IsPlaced(p0, j) && pre[j] == slots[j];
    }
    if p.acc.height != cfg.paddingTop {
      var k :| IsPlaced(p0, k) && p0.acc.height == BoxBottom(pre[k].view, p0.placements[k].value);
      assert IsPlaced(p, k) && pre[k] == slots[k];
    }
  }

  /** The geometry of a pass from `init()`, by induction over the slots. */
  lemma {:induction false} PackGeometry(cfg: Config, slots: seq<Slot>, removed: Option<View>)
    requires NonNegativeConfig(cfg) && AllNonNegative(slots)
    ensures Geometry(cfg, slots, removed)
    decreases |slots|
  {
    if |slots| > 0 {
      var n := |slots|;
      var pre := slots[..n - 1];
      var last := slots[n - 1];
      assert slots == pre + [last];
      assert AllNonNegative(pre) by {
        forall i | 0 <= i < |pre| ensures NonNegativeView(pre[i].view) {
          assert pre[i] == slots[i];
        }
      }
      PackGeometry(cfg, pre, removed);
      var p0 := PackSlots(cfg, Init(cfg), pre, removed);
      var rows0 := Rows(cfg, Init(cfg), pre, removed);
      if Participates(last, removed) {
        PlacedStepKeepsGeometry(cfg, pre, p0, rows0, last);
      } else {
        SkippedStepKeepsGeometry(cfg, pre, p0, rows0, last);
      }
    }
  }

  /** A layout constructed with non-negative spacing attributes and paddings
      meets the assumption of `PackGeometry`, so its passes have its geometry. */
  lemma ConstructedPassGeometry(c: Construction, width: int, paddingLeft: nat, paddingTop: nat,
                                paddingRight: nat, paddingBottom: nat, slots: seq<Slot>, removed: Option<View>)
    requires NonNegativeAttributes(c) && AllNonNegative(slots)
    ensures Geometry(ConfigOf(c, width, paddingLeft, paddingTop, paddingRight, paddingBottom), slots, removed)
  {
    PackGeometry(ConfigOf(c, width, paddingLeft, paddingTop, paddingRight, paddingBottom), slots, removed);
  }

  /** Within a row the layouts run left to right, separated by at least the
      horizontal spacing and sharing one row top; a later row lies at least
      the vertical spacing below every layout of an earlier row. */
  lemma LayoutsDoNotOverlap(cfg: Config, slots: seq<Slot>, removed: Option<View>)
    requires NonNegativeConfig(cfg) && AllNonNegative(slots)
    ensures var p := PackSlots(cfg, Init(cfg), slots, removed);
      var rows := Rows(cfg, Init(cfg), slots, removed);
      forall i, j :: 0 <= i < j < |slots| && IsPlaced(p, i) && IsPlaced(p, j) ==>
        var li := p.placements[i].value;
        var lj := p.placements[j].value;
        && rows[i] <= rows[j]
        && (rows[i] == rows[j] ==>
              li.r + cfg.eachMarginWidth <= lj.l
              && RowTop(slots[i].view, li) == RowTop(slots[j].view, lj))
        && (rows[i] < rows[j] ==> li.b + cfg.eachMarginHeight <= lj.t)
  {
    PackGeometry(cfg, slots, removed);
    var p := PackSlots(cfg, Init(cfg), slots, removed);
    var rows := Rows(cfg, Init(cfg), slots, removed);
    forall i, j | 0 <= i < j < |slots| && IsPlaced(p, i) && IsPlaced(p, j)
      ensures var li := p.placements[i].value;
        var lj := p.placements[j].value;
        && (rows[i] == rows[j] ==> li.r + cfg.eachMarginWidth <= lj.l)
        && (rows[i] < rows[j] ==> li.b + cfg.eachMarginHeight <= lj.t)
    {
      assert NonNegativeView(slots[i].view) && NonNegativeView(slots[j].view);
      assert PairFacts(cfg, slots[i].view, p.placements[i].value, rows[i],
                       slots[j].view, p.placements[j].value, rows[j]);
    }
  }

  /** A view wider than the container shares its row with no other view. */
  lemma WideViewIsAlone(cfg: Config, slots: seq<Slot>, removed: Option<View>, j: int)
    requires NonNegativeConfig(cfg) && AllNonNegative(slots)
    requires IsPlaced(PackSlots(cfg, Init(cfg), slots, removed), j)
    requires slots[j].view.measuredWidth > cfg.rowMaxWidth
    ensures var p := PackSlots(cfg, Init(cfg), slots, removed);
      var rows := Rows(cfg, Init(cfg), slots, removed);
      forall i :: IsPlaced(p, i) && i != j ==> rows[i] != rows[j]
  {
    PackGeometry(cfg, slots, removed);
    var p := PackSlots(cfg, Init(cfg), slots, removed);
    var rows := Rows(cfg, Init(cfg), slots, removed);
    forall i | IsPlaced(p, i) && i != j ensures rows[i] != rows[j] {
      assert NonNegativeView(slots[i].view);
      if i < j {
        assert PairFacts(cfg, slots[i].view, p.placements[i].value, rows[i],
                         slots[j].view, p.placements[j].value, rows[j]);
      } else {
        assert PairFacts(cfg, slots[j].view, p.placements[j].value, rows[j],
                         slots[i].view, p.placements[i].value, rows[i]);
      }
    }
  }

  /** `getTotalHeight` after a pass: zero when nothing was placed; otherwise
      the bottom padding below the lowest margin box (or below the top
      padding, when every placed view is empty). */
  lemma TotalHeightOfPass(cfg: Config, slots: seq<Slot>, removed: Option<View>)
    requires NonNegativeConfig(cfg) && AllNonNegative(slots)
    ensures var p := PackSlots(cfg, Init(cfg), slots, removed);
      var total := TotalHeight(cfg, p.acc);
      && (PlacedCount(p.placements) == 0 ==> total == 0)
      && (forall i :: IsPlaced(p, i) ==>
            BoxBottom(slots[i].view, p.placements[i].value) + cfg.paddingBottom <= total)
      && (PlacedCount(p.placements) > 0 ==>
            && total == p.acc.height + cfg.paddingBottom
            && cfg.paddingTop + cfg.paddingBottom <= total
            && (total == cfg.paddingTop + cfg.paddingBottom ||
                exists i :: IsPlaced(p, i) &&
                  total == BoxBottom(slots[i].view, p.placements[i].value) + cfg.paddingBottom))
  {
    PackGeometry(cfg, slots, removed);
    RowsNeverOutnumberViews(cfg, Init(cfg), slots, removed);
    var p := PackSlots(cfg, Init(cfg), slots, removed);
    var rows := Rows(cfg, Init(cfg), slots, removed);
    if PlacedCount(p.placements) > 0 {
      assert p.acc.rowCount >= 1;
    }
    forall i | IsPlaced(p, i)
      ensures BoxBottom(slots[i].view, p.placements[i].value) + cfg.paddingBottom <= TotalHeight(cfg, p.acc)
    {
      assert SlotFacts(cfg, p.acc, slots[i].view, p.placements[i].value, rows[i]);
    }
  }

  /** Every row is opened by a view placed in it: rows never outnumber placed
      views, at least one row is open once anything was placed, and a pass
      that places nothing leaves the accumulator as it found it. */
  lemma {:induction false} RowsNeverOutnumberViews(cfg: Config, a: Acc, slots: seq<Slot>, removed: Option<View>)
    ensures var p := PackSlots(cfg, a, slots, removed);
      && p.acc.rowCount <= a.rowCount + PlacedCount(p.placements)
      && (WellFormed(a) && PlacedCount(p.placements) > 0 ==> p.acc.rowCount >= 1)
      && (PlacedCount(p.placements) == 0 ==> p.acc == a)
    decreases |slots|
  {
    if |slots| > 0 {
      var n := |slots|;
      RowsNeverOutnumberViews(cfg, a, slots[..n - 1], removed);
      PackStep(cfg, a, slots, removed);
      var p0 := PackSlots(cfg, a, slots[..n - 1], removed);
      var p := PackSlots(cfg, a, slots, removed);
      assert p.placements[..n - 1] == p0.placements;
      if Participates(slots[n - 1], removed) {
        assert PlacedCount(p.placements) == PlacedCount(p0.placements) + 1;
      } else {
        assert PlacedCount(p.placements) == PlacedCount(p0.placements);
      }
    }
  }

  /** Some view of pass `p` was placed in row `r`. */
  ghost predicate HasRow(p: Pass, rows: seq<nat>, r: int) {
    exists i :: IsPlaced(p, i) && i < |rows| && rows[i] == r
  }

  /** No row is empty: every row a pass opens holds a view placed in it. */
  lemma {:induction false} EveryRowHoldsAView(cfg: Config, a: Acc, slots: seq<Slot>, removed: Option<View>)
    ensures var p := PackSlots(cfg, a, slots, removed);
      var rows := Rows(cfg, a, slots, removed);
      forall r :: a.rowCount < r <= p.acc.rowCount ==> HasRow(p, rows, r)
    decreases |slots|
  {
    if |slots| > 0 {
      var n := |slots|;
      var pre := slots[..n - 1];
      EveryRowHoldsAView(cfg, a, pre, removed);
      assert forall r :: a.rowCount < r <= PackSlots(cfg, a, pre, removed).acc.rowCount ==>
        HasRow(PackSlots(cfg, a, pre, removed), Rows(cfg, a, pre, removed), r);
      PackStep(cfg, a, slots, removed);
      var p0 := PackSlots(cfg, a, pre, removed);
      var rows0 := Rows(cfg, a, pre, removed);
      var p := PackSlots(cfg, a, slots, removed);
      var rows := Rows(cfg, a, slots, removed);
      assert rows == rows0 + [p.acc.rowCount];
      assert p.placements[..n - 1] == p0.placements;
      forall r | a.rowCount < r <= p.acc.rowCount
        ensures HasRow(p, rows, r)
      {
        if r <= p0.acc.rowCount {
          assert HasRow(p0, rows0, r);
          var i :| IsPlaced(p0, i) && i < |rows0| && rows0[i] == r;
          assert p.placements[i] == p0.placements[i];
          assert IsPlaced(p, i) && rows[i] == r;
        } else {
          assert IsPlaced(p, n - 1) && rows[n - 1] == r;
        }
      }
    }
  }

  /** The placements of a prefix of the slots are the prefix of the placements. */
  lemma {:induction false} PackPrefix(cfg: Config, a: Acc, slots: seq<Slot>, removed: Option<View>, k: int)
    requires 0 <= k <= |slots|
    ensures PackSlots(cfg, a, slots, removed).placements[..k]
         == PackSlots(cfg, a, slots[..k], removed).placements
    decreases |slots|
  {
    if k < |slots| {
      var n := |slots|;
      var pre := slots[..n - 1];
      PackPrefix(cfg, a, pre, removed, k);
      assert pre[..k] == slots[..k];
      PackStep(cfg, a, slots, removed);
      ExtendEntry(cfg, PackSlots(cfg, a, pre, removed), slots[n - 1], removed);
      var ps := PackSlots(cfg, a, slots, removed).placements;
      var ps0 := PackSlots(cfg, a, pre, removed).placements;
      assert ps[..k] == ps[..n - 1][..k];
    } else {
      assert slots[..k] == slots;
    }
  }

  /** A slot that takes no part in a pass (a GONE child, or the child being
      removed) changes nothing: the pass equals the pass without that slot,
      with an empty entry in its place. */
  lemma {:induction false} SkippedSlotIsAbsent(cfg: Config, a: Acc, slots: seq<Slot>, removed: Option<View>, j: int)
    requires 0 <= j < |slots| && !Participates(slots[j], removed)
    ensures var q := PackSlots(cfg, a, slots[..j] + slots[j + 1..], removed);
      PackSlots(cfg, a, slots, removed) == Pass(q.acc, q.placements[..j] + [None] + q.placements[j..])
    decreases |slots|
  {
    var n := |slots|;
    var rest := slots[..j] + slots[j + 1..];
    if j == n - 1 {
      SkippedLastSlot(cfg, a, slots, removed);
    } else {
      SkippedSlotIsAbsent(cfg, a, slots[..n - 1], removed, j);
      SkippedEarlierSlot(cfg, a, slots, removed, j);
    }
  }

  lemma SkippedEarlierSlot(cfg: Config, a: Acc, slots: seq<Slot>, removed: Option<View>, j: int)
    requires 0 <= j < |slots| - 1
    requires var pre := slots[..|slots| - 1];
      var q0 := PackSlots(cfg, a, pre[..j] + pre[j + 1..], removed);
      PackSlots(cfg, a, pre, removed) == Pass(q0.acc, q0.placements[..j] + [None] + q0.placements[j..])
    ensures var q := PackSlots(cfg, a, slots[..j] + slots[j + 1..], removed);
      PackSlots(cfg, a, slots, removed) == Pass(q.acc, q.placements[..j] + [None] + q.placements[j..])
  {
    var n := |slots|;
    var pre := slots[..n - 1];
    var rest := slots[..j] + slots[j + 1..];
    DropBeforeLast(slots, j);
    PackStep(cfg, a, slots, removed);
    PackStep(cfg, a, rest, removed);
    ExtendKeepsGap(cfg, PackSlots(cfg, a, pre, removed),
                   PackSlots(cfg, a, pre[..j] + pre[j + 1..], removed), slots[n - 1], removed, j);
  }

  lemma SkippedLastSlot(cfg: Config, a: Acc, slots: seq<Slot>, removed: Option<View>)
    requires |slots| > 0 && !Participates(slots[|slots| - 1], removed)
    ensures var j := |slots| - 1;
      var q := PackSlots(cfg, a, slots[..j] + slots[j + 1..], removed);
      PackSlots(cfg, a, slots, removed) == Pass(q.acc, q.placements[..j] + [None] + q.placements[j..])
  {
    var j := |slots| - 1;
    assert slots[..j] + slots[j + 1..] == slots[..j];
    PackStep(cfg, a, slots, removed);
    NoneAtEnd(PackSlots(cfg, a, slots[..j], removed).placements);
  }

  lemma ExtendKeepsGap(cfg: Config, p0: Pass, q0: Pass, last: Slot, removed: Option<View>, j: int)
    requires 0 <= j <= |q0.placements|
    requires p0 == Pass(q0.acc, q0.placements[..j] + [None] + q0.placements[j..])
    ensures var q := Extend(cfg, q0, last, removed);
      Extend(cfg, p0, last, removed) == Pass(q.acc, q.placements[..j] + [None] + q.placements[j..])
  {
    ExtendAppends(cfg, p0, last, removed);
    ExtendAppends(cfg, q0, last, removed);
    var e := Extend(cfg, Pass(q0.acc, []), last, removed);
    GapThenAppend(q0.placements, j, e.placements);
  }

  /** One unfolding of a pass. */
  lemma PackStep(cfg: Config, a: Acc, slots: seq<Slot>, removed: Option<View>)
    requires |slots| > 0
    ensures PackSlots(cfg, a, slots, removed)
         == Extend(cfg, PackSlots(cfg, a, slots[..|slots| - 1], removed), slots[|slots| - 1], removed)
  {
  }

  lemma NoneAtEnd<T>(xs: seq<Option<T>>)
    ensures xs + [None] == xs[..|xs|] + [None] + xs[|xs|..]
  {
  }

  lemma DropBeforeLast<T>(s: seq<T>, j: int)
    requires 0 <= j < |s| - 1
    ensures var rest := s[..j] + s[j + 1..];
      && rest[..|rest| - 1] == s[..|s| - 1][..j] + s[..|s| - 1][j + 1..]
      && rest[|rest| - 1] == s[|s| - 1]
  {
  }

  lemma GapThenAppend<T>(xs: seq<Option<T>>, j: int, ys: seq<Option<T>>)
    requires 0 <= j <= |xs|
    ensures (xs[..j] + [None] + xs[j..]) + ys == (xs + ys)[..j] + [None] + (xs + ys)[j..]
  {
    assert (xs + ys)[..j] == xs[..j];
    assert (xs + ys)[j..] == xs[j..] + ys;
  }

  /** Extending a pass depends only on its accumulator and appends one entry. */
  lemma ExtendAppends(cfg: Config, prev: Pass, s: Slot, removed: Option<View>)
    ensures var e := Extend(cfg, Pass(prev.acc, []), s, removed);
      && |e.placements| == 1
      && Extend(cfg, prev, s, removed) == Pass(e.acc, prev.placements + e.placements)
  {
  }

  /** Two slot sequences that name the same views and agree, slot by slot, on
      which take part give the same pass: whether a view is packed as a child
      or as the pending insertion makes no difference to where it goes. */
  lemma {:induction false} SameViewsSamePass(cfg: Config, a: Acc, xs: seq<Slot>, ys: seq<Slot>, removed: Option<View>)
    requires |xs| == |ys|
    requires forall i :: 0 <= i < |xs| ==>
      xs[i].view == ys[i].view && (Participates(xs[i], removed) <==> Participates(ys[i], removed))
    ensures PackSlots(cfg, a, xs, removed) == PackSlots(cfg, a, ys, removed)
    decreases |xs|
  {
    if |xs| > 0 {
      var n := |xs|;
      SameViewsSamePass(cfg, a, xs[..n - 1], ys[..n - 1], removed);
      PackStep(cfg, a, xs, removed);
      PackStep(cfg, a, ys, removed);
    }
  }

  /** Removing a view that is not among the children is the same as removing nothing. */
  lemma {:induction false} RemovingAbsentViewIsMoot(cfg: Config, a: Acc, slots: seq<Slot>, v: View)
    requires forall i :: 0 <= i < |slots| ==> slots[i] != Child(v)
    ensures PackSlots(cfg, a, slots, Some(v)) == PackSlots(cfg, a, slots, None)
    decreases |slots|
  {
    if |slots| > 0 {
      var n := |slots|;
      RemovingAbsentViewIsMoot(cfg, a, slots[..n - 1], v);
      PackStep(cfg, a, slots, Some(v));
      PackStep(cfg, a, slots, None);
      assert slots[n - 1] != Child(v);
    }
  }
}

=== FILE: row_packer.dfy ===
/**
  The greedy row packer of the wrap layout (`ChildrenMeasure.measureView`):
  one step places one view, threading an accumulator of row count, column
  count, current row top, running content height and the current row's
  cursor. A whole pass is a fold of that step over a sequence of slots.
 */
module RowPacker {
  import opened Wrappers
  import opened Views

  /** Container width, the four paddings, and the two spacing constants. */
  datatype Config = Config(
    rowMaxWidth: int,
    paddingLeft: int,
    paddingTop: int,
    paddingRight: int,
    paddingBottom: int,
    eachMarginWidth: int,
    eachMarginHeight: int)

  /** How the layout object was constructed: from code, or from XML attributes
      in which each spacing attribute may be present or absent. */
  datatype Construction =
    | FromCode
    | FromAttributes(eachMarginWidth: Option<int>, eachMarginHeight: Option<int>)

  datatype Spacing = Spacing(width: int, height: int)

  /** Spacing used when an attribute is absent. */
  const DefaultEachMargin: int := 4

  /** Every spacing attribute that is present is non-negative. */
  predicate NonNegativeAttributes(c: Construction) {
    c.FromAttributes? ==>
      && (c.eachMarginWidth.Some? ==> c.eachMarginWidth.value >= 0)
      && (c.eachMarginHeight.Some? ==> c.eachMarginHeight.value >= 0)
  }

  /** The two spacing constants a construction yields (`readAttr`): an absent
      attribute falls back to `DefaultEachMargin`; a layout built from code
      never reads attributes and keeps both at 0. */
  function SpacingOf(c: Construction): (s: Spacing)
    // The defaults never make a spacing negative.
    ensures NonNegativeAttributes(c) ==> s.width >= 0 && s.height >= 0
  {
    match c
    case FromCode => Spacing(0, 0)
    case FromAttributes(w, h) =>
      Spacing(if w.Some? then w.value else DefaultEachMargin,
              if h.Some? then h.value else DefaultEachMargin)
  }

  /** The configuration a constructed layout packs with: the container width
      and paddings the host gives it, and the spacings of its construction. */
  function ConfigOf(c: Construction, width: int, paddingLeft: nat, paddingTop: nat,
                    paddingRight: nat, paddingBottom: nat): (cfg: Config)
    ensures NonNegativeAttributes(c) ==> NonNegativeConfig(cfg)
    ensures cfg.rowMaxWidth == width
  {
    var s := SpacingOf(c);
    Config(width, paddingLeft, paddingTop, paddingRight, paddingBottom, s.width, s.height)
  }

  predicate NonNegativeConfig(cfg: Config) {
    && cfg.paddingLeft >= 0 && cfg.paddingTop >= 0
    && cfg.paddingRight >= 0 && cfg.paddingBottom >= 0
    && cfg.eachMarginWidth >= 0 && cfg.eachMarginHeight >= 0
  }

  /** The packing accumulator. (`measureView` also keeps the current row's
      height, which it writes and never reads.) */
  datatype Acc = Acc(rowCount: nat, columnCount: nat, top: int, height: int, rowWidth: int)

  datatype Placed = Placed(acc: Acc, layout: Layout)

  /** The accumulator `init()` leaves behind. */
  function Init(cfg: Config): Acc {
    Acc(0, 0, cfg.paddingTop, cfg.paddingTop, 0)
  }

  /** No view has been placed yet in this pass. */
  predicate IsFirst(a: Acc) {
    a.columnCount == 0 && a.rowCount == 0
  }

  /** Row and column counts agree on whether anything was placed; every
      accumulator reachable from `Init` has this shape. */
  predicate WellFormed(a: Acc) {
    (a.rowCount == 0) == (a.columnCount == 0)
  }

  /** The view fits after the current cursor: its width, the spacing, its
      right margin and the right padding (but not its left margin). */
  predicate Fits(cfg: Config, a: Acc, v: View) {
    a.rowWidth + v.measuredWidth + cfg.eachMarginWidth + MarginsOf(v).right + cfg.paddingRight
      <= cfg.rowMaxWidth
  }

  /** The left edge of a view's margin box in layout `l`. */
  function Cursor(v: View, l: Layout): int {
    l.l - MarginsOf(v).left
  }

  /** The top of the row a view was placed in, read back from its layout. */
  function RowTop(v: View, l: Layout): int {
    l.t - MarginsOf(v).top
  }

  /** Right end of a view's margin box: where the row cursor stands after it. */
  function BoxRight(v: View, l: Layout): int {
    l.r + MarginsOf(v).left
  }

  /** Bottom of a view's margin box: its row top plus its full height with margins. */
  function BoxBottom(v: View, l: Layout): int {
    l.b + MarginsOf(v).top
  }

  /** One `measureView` step. */
  function MeasureView(cfg: Config, a: Acc, v: View): (p: Placed)
    // Progress: exactly one row is opened or the view joins the current row.
    ensures p.acc.rowCount == a.rowCount || p.acc.rowCount == a.rowCount + 1
    ensures p.acc.columnCount >= 1
    ensures WellFormed(a) ==> p.acc.rowCount >= 1 && WellFormed(p.acc)
    // The first view of a pass opens row 1, whatever its width.
    ensures IsFirst(a) ==> p.acc.rowCount == 1 && p.acc.columnCount == 1
    // Wrap rule for every later view.
    ensures !IsFirst(a) ==> (p.acc.rowCount == a.rowCount <==> Fits(cfg, a, v))
    ensures p.acc.rowCount == a.rowCount ==> p.acc.columnCount == a.columnCount + 1
    // Opening a row restarts the cursor at the left padding; rows after the
    // first start one vertical spacing below everything placed so far.
    ensures p.acc.rowCount != a.rowCount ==>
      && Cursor(v, p.layout) == cfg.paddingLeft
      && p.acc.columnCount == 1
      && p.acc.top == (if p.acc.rowCount == 1 then a.top else a.height + cfg.eachMarginHeight)
    // Joining a row keeps its top and advances the cursor by one spacing.
    ensures p.acc.rowCount == a.rowCount && WellFormed(a) ==>
      && p.acc.top == a.top
      && Cursor(v, p.layout) == a.rowWidth + cfg.eachMarginWidth
    // Placement: the layout sits at the cursor and the row top.
    ensures RowTop(v, p.layout) == p.acc.top
    ensures p.layout.r == Cursor(v, p.layout) + v.measuredWidth + MarginsOf(v).right
    ensures p.layout.b == p.acc.top + v.measuredHeight + MarginsOf(v).bottom
    // The cursor ends after the view's margin box.
    ensures p.acc.rowWidth == BoxRight(v, p.layout)
    // The content height grows to cover the view's margin box and never shrinks.
    ensures p.acc.height >= a.height && p.acc.height >= BoxBottom(v, p.layout)
    ensures p.acc.height == a.height || p.acc.height == BoxBottom(v, p.layout)
  {
    var m := MarginsOf(v);
    var childWidth := v.measuredWidth;
    var childHeight := v.measuredHeight;
    var childTotalWidth := childWidth + m.right + m.left;
    var childTotalHeight := childHeight + m.top + m.bottom;
    var opens :=
      cfg.rowMaxWidth < a.rowWidth + childWidth + cfg.eachMarginWidth + m.right + cfg.paddingRight
      || IsFirst(a);
    var rowCount := if opens then a.rowCount + 1 else a.rowCount;
    var columnCount := if opens then 1 else a.columnCount + 1;
    var top := if opens && rowCount > 1 then a.height + cfg.eachMarginHeight else a.top;
    var rowStart := if opens then cfg.paddingLeft else a.rowWidth;
    var height := if a.height < top + childTotalHeight then top + childTotalHeight else a.height;
    var cursor := if columnCount > 1 then rowStart + cfg.eachMarginWidth else rowStart;
    var layout := Layout(cursor + m.left, top + m.top, cursor + childWidth + m.right, top + childHeight + m.bottom);
    Placed(Acc(rowCount, columnCount, top, height, cursor + childTotalWidth), layout)
  }

  /** The size of a placed layout: the measured size, shifted by the margins.
      The right edge counts the right margin but not the left one, so the
      width equals the measured width only when the two side margins agree. */
  lemma LayoutSize(cfg: Config, a: Acc, v: View)
    ensures var l := MeasureView(cfg, a, v).layout;
      var m := MarginsOf(v);
      && l.r - l.l == v.measuredWidth + m.right - m.left
      && l.b - l.t == v.measuredHeight + m.bottom - m.top
      && (v.params.None? ==> l.r - l.l == v.measuredWidth && l.b - l.t == v.measuredHeight)
  {
  }

  /** One entry of a layout pass: a child of the layout, or the view whose
      insertion is pending (packed without an entry of its own). */
  datatype Slot = Child(view: View) | Inserted(view: View)

  /** Whether a slot consumes space: the pending view always does; a child
      does unless it is GONE or is the view being removed. */
  predicate Participates(s: Slot, removed: Option<View>) {
    match s
    case Inserted(_) => true
    case Child(v) => ShouldLayout(v) && removed != Some(v)
  }

  datatype Pass = Pass(acc: Acc, placements: seq<Option<Layout>>)

  function PlacedCount(ps: seq<Option<Layout>>): (n: nat)
    ensures n <= |ps|
  {
    if |ps| == 0 then 0
    else PlacedCount(ps[..|ps| - 1]) + (if ps[|ps| - 1].Some? then 1 else 0)
  }

  /** A pass over `slots` starting from accumulator `a`: one placement per
      slot (present exactly for the slots that take part, see `PackEntries`). */
  function PackSlots(cfg: Config, a: Acc, slots: seq<Slot>, removed: Option<View>): (p: Pass)
    ensures |p.placements| == |slots|
    ensures a.height <= p.acc.height
    ensures a.rowCount <= p.acc.rowCount
    ensures WellFormed(a) ==> WellFormed(p.acc)
    decreases |slots|
  {
    if |slots| == 0 then Pass(a, [])
    else
      var prev := PackSlots(cfg, a, slots[..|slots| - 1], removed);
      var r := Extend(cfg, prev, slots[|slots| - 1], removed);
      assert r.placements[..|slots| - 1] == prev.placements;
      r
  }

  /** A slot's entry is present exactly when the slot takes part. */
  lemma {:induction false} PackEntries(cfg: Config, a: Acc, slots: seq<Slot>, removed: Option<View>)
    ensures var p := PackSlots(cfg, a, slots, removed);
      forall i :: 0 <= i < |slots| ==> (p.placements[i].Some? <==> Participates(slots[i], removed))
    decreases |slots|
  {
    if |slots| > 0 {
      var n := |slots|;
      PackEntries(cfg, a, slots[..n - 1], removed);
      var prev := PackSlots(cfg, a, slots[..n - 1], removed);
      var p := PackSlots(cfg, a, slots, removed);
      assert p == Extend(cfg, prev, slots[n - 1], removed);
      ExtendEntry(cfg, prev, slots[n - 1], removed);
      forall i | 0 <= i < n - 1
        ensures p.placements[i].Some? <==> Participates(slots[i], removed)
      {
        assert p.placements[i] == prev.placements[i];
        assert slots[..n - 1][i] == slots[i];
      }
    }
  }

  /** One iteration of the pass: pack the slot if it takes part, and record its entry. */
  function Extend(cfg: Config, prev: Pass, s: Slot, removed: Option<View>): Pass {
    if Participates(s, removed) then
      var m := MeasureView(cfg, prev.acc, s.view);
      Pass(m.acc, prev.placements + [Some(m.layout)])
    else
      Pass(prev.acc, prev.placements + [None])
  }

  /** Extending a pass keeps its entries and adds one, present exactly when the slot takes part. */
  lemma ExtendEntry(cfg: Config, prev: Pass, s: Slot, removed: Option<View>)
    ensures var e := Extend(cfg, prev, s, removed).placements;
      && |e| == |prev.placements| + 1
      && e[..|prev.placements|] == prev.placements
      && (e[|prev.placements|].Some? <==> Participates(s, removed))
  {
  }

  /** `getTotalHeight`: zero when no row was opened, else the content height
      plus the bottom padding. */
  function TotalHeight(cfg: Config, a: Acc): int {
    if a.rowCount == 0 then 0 else a.height + cfg.paddingBottom
  }
}

=== FILE: session.dfy ===
/**
  The measuring session of the wrap layout (`ChildrenMeasure.measure()` and
  its mode flags): which slots a pass visits, how the pending insertion is
  spliced in, and the per-child layout set it produces; plus the two host
  callbacks that drive it, `onMeasure` and `onLayout`.
 */
module Session {
  import opened Wrappers
  import opened Views
  import opened RowPacker
  import opened PackerGeometry

  /** The pending insertion: the view, the child index it goes to, and the
      alpha the view had when the insertion was requested. */
  datatype Pending = Pending(view: View, position: int, alpha: real)

  /** The mode flags of a pass. */
  datatype Options = Options(ignoreAddedView: bool, removeView: Option<View>)

  /** The flags `init()` leaves behind: pack the pending view, remove nothing. */
  const Reset: Options := Options(false, None)

  function IgnoreAddedView(o: Options): Options {
    o.(ignoreAddedView := true)
  }

  function Without(o: Options, v: View): Options {
    o.(removeView := Some(v))
  }

  /** Whether a pass packs the pending view: there is one, the pass does not
      ignore it, and the loop reaches a child index at or after its position. */
  predicate PacksPending(children: seq<View>, pending: Option<Pending>, o: Options) {
    && pending.Some?
    && !o.ignoreAddedView
    && 0 < |children|
    && pending.value.position < |children|
  }

  /** The first child index the loop reaches at or after the pending position. */
  function InsertionIndex(p: Pending): nat {
    if p.position < 0 then 0 else p.position
  }

  function Wrap(vs: seq<View>): (r: seq<Slot>)
    ensures |r| == |vs|
    ensures forall i :: 0 <= i < |vs| ==> r[i] == Child(vs[i])
  {
    seq(|vs|, i requires 0 <= i < |vs| => Child(vs[i]))
  }

  /** The order in which a pass visits views (see `SlotsOrder`). */
  function Slots(children: seq<View>, pending: Option<Pending>, o: Options): (slots: seq<Slot>)
    ensures |slots| == |children| + (if PacksPending(children, pending, o) then 1 else 0)
  {
    if PacksPending(children, pending, o) then
      var k := InsertionIndex(pending.value);
      Wrap(children[..k]) + [Inserted(pending.value.view)] + Wrap(children[k..])
    else
      Wrap(children)
  }

  /** A pass visits every child once, in order, with the pending view (when
      packed) in front of child `InsertionIndex` and nowhere else. */
  lemma SlotsOrder(children: seq<View>, pending: Option<Pending>, o: Options)
    ensures var slots := Slots(children, pending, o);
      && (PacksPending(children, pending, o) ==>
            var k := InsertionIndex(pending.value);
            && k < |children|
            && slots[k] == Inserted(pending.value.view)
            && (forall i :: 0 <= i < k ==> slots[i] == Child(children[i]))
            && (forall i :: k < i < |slots| ==> slots[i] == Child(children[i - 1])))
      && (!PacksPending(children, pending, o) ==>
            forall i :: 0 <= i < |slots| ==> slots[i] == Child(children[i]))
  {
  }

  /** The state a pass leaves: the accumulator and the layout set, one entry per child. */
  datatype Measured = Measured(acc: Acc, layoutSet: seq<Option<Layout>>)

  /** `measure()`: a pass over the slots; the pending view is packed but has no entry. */
  function Measure(cfg: Config, children: seq<View>, pending: Option<Pending>, o: Options): (m: Measured)
    ensures |m.layoutSet| == |children|
    ensures forall i :: 0 <= i < |children| ==>
      (m.layoutSet[i].Some? <==> ShouldLayout(children[i]) && o.removeView != Some(children[i]))
  {
    var slots := Slots(children, pending, o);
    var p := PackSlots(cfg, Init(cfg), slots, o.removeView);
    ChildEntries(cfg, children, pending, o);
    if PacksPending(children, pending, o) then
      var k := InsertionIndex(pending.value);
      Measured(p.acc, p.placements[..k] + p.placements[k + 1..])
    else
      Measured(p.acc, p.placements)
  }

  /** Dropping the pending view's placement leaves one entry per child, set
      exactly for the children that take part. */
  lemma ChildEntries(cfg: Config, children: seq<View>, pending: Option<Pending>, o: Options)
    ensures var p := PackSlots(cfg, Init(cfg), Slots(children, pending, o), o.removeView).placements;
      var k := if PacksPending(children, pending, o) then InsertionIndex(pending.value) else 0;
      var ls := if PacksPending(children, pending, o) then p[..k] + p[k + 1..] else p;
      && |ls| == |children|
      && forall i :: 0 <= i < |children| ==>
           (ls[i].Some? <==> ShouldLayout(children[i]) && o.removeView != Some(children[i]))
  {
    var slots := Slots(children, pending, o);
    var p := PackSlots(cfg, Init(cfg), slots, o.removeView).placements;
    SlotsOrder(children, pending, o);
    PackEntries(cfg, Init(cfg), slots, o.removeView);
    if PacksPending(children, pending, o) {
      GapEntries(p, slots, children, InsertionIndex(pending.value), o.removeView);
    } else {
      NoGapEntries(p, slots, children, o.removeView);
    }
  }

  lemma NoGapEntries(p: seq<Option<Layout>>, slots: seq<Slot>, children: seq<View>, removed: Option<View>)
    requires |p| == |slots| == |children|
    requires forall j :: 0 <= j < |slots| ==> (p[j].Some? <==> Participates(slots[j], removed))
    requires forall i :: 0 <= i < |slots| ==> slots[i] == Child(children[i])
    ensures forall i :: 0 <= i < |children| ==>
      (p[i].Some? <==> ShouldLayout(children[i]) && removed != Some(children[i]))
  {
    forall i | 0 <= i < |children|
      ensures p[i].Some? <==> ShouldLayout(children[i]) && removed != Some(children[i])
    {
      assert slots[i] == Child(children[i]);
    }
  }

  lemma GapEntries(p: seq<Option<Layout>>, slots: seq<Slot>, children: seq<View>, k: nat, removed: Option<View>)
    requires |p| == |slots| == |children| + 1 && k < |slots|
    requires forall j :: 0 <= j < |slots| ==> (p[j].Some? <==> Participates(slots[j], removed))
    requires forall i :: 0 <= i < k ==> slots[i] == Child(children[i])
    requires forall i :: k < i < |slots| ==> slots[i] == Child(children[i - 1])
    ensures forall i :: 0 <= i < |children| ==>
      ((p[..k] + p[k + 1..])[i].Some? <==> ShouldLayout(children[i]) && removed != Some(children[i]))
  {
    var ls := p[..k] + p[k + 1..];
    forall i | 0 <= i < |children|
      ensures ls[i].Some? <==> ShouldLayout(children[i]) && removed != Some(children[i])
    {
      if i < k {
        assert ls[i] == p[i] && slots[i] == Child(children[i]);
      } else {
        assert ls[i] == p[i + 1] && slots[i + 1] == Child(children[i]);
      }
    }
  }

  /** The slot a pass visits child `i` in: one further on once the pending
      view has been packed in front of it. */
  function SlotOf(children: seq<View>, pending: Option<Pending>, o: Options, i: nat): nat {
    if PacksPending(children, pending, o) && InsertionIndex(pending.value) <= i then i + 1 else i
  }

  /** Each child's entry in the layout set is the placement of that child's slot. */
  lemma EntryOfChild(cfg: Config, children: seq<View>, pending: Option<Pending>, o: Options, i: nat)
    requires i < |children|
    ensures var slots := Slots(children, pending, o);
      var j := SlotOf(children, pending, o, i);
      && j < |slots|
      && slots[j] == Child(children[i])
      && Measure(cfg, children, pending, o).layoutSet[i]
           == PackSlots(cfg, Init(cfg), slots, o.removeView).placements[j]
  {
    SlotsOrder(children, pending, o);
    var slots := Slots(children, pending, o);
    var p := PackSlots(cfg, Init(cfg), slots, o.removeView).placements;
    var ls := Measure(cfg, children, pending, o).layoutSet;
    if PacksPending(children, pending, o) {
      var k := InsertionIndex(pending.value);
      assert ls == p[..k] + p[k + 1..];
      GapIndex(p, k, i);
    } else {
      assert ls == p;
    }
  }

  lemma GapIndex<T>(p: seq<T>, k: nat, i: nat)
    requires k < |p| && i < |p| - 1
    ensures (p[..k] + p[k + 1..])[i] == p[if i < k then i else i + 1]
  {
  }

  /** A pass that does not pack the pending view (it is ignored, or its
      position is at or past the last child) lays out as if there were none. */
  lemma UnpackedPendingIsAbsent(cfg: Config, children: seq<View>, p: Pending, o: Options)
    requires !PacksPending(children, Some(p), o)
    ensures Measure(cfg, children, Some(p), o) == Measure(cfg, children, None, o)
  {
  }

  /** Packing the pending view leaves the layouts of the children before its
      position exactly as they are without it. */
  lemma PendingKeepsEarlierLayouts(cfg: Config, children: seq<View>, p: Pending, o: Options)
    requires PacksPending(children, Some(p), o)
    ensures var k := InsertionIndex(p);
      Measure(cfg, children, Some(p), o).layoutSet[..k] == Measure(cfg, children, None, o).layoutSet[..k]
  {
    var k := InsertionIndex(p);
    var with := Slots(children, Some(p), o);
    var without := Slots(children, None, o);
    assert with[..k] == without[..k];
    PackPrefix(cfg, Init(cfg), with, o.removeView, k);
    PackPrefix(cfg, Init(cfg), without, o.removeView, k);
    var pw := PackSlots(cfg, Init(cfg), with, o.removeView).placements;
    assert (pw[..k] + pw[k + 1..])[..k] == pw[..k];
  }

  /** A pass `without(v)`, where `v` is the child at index `j` and nowhere
      else, is the pass over the other children with an empty entry at `j`. */
  lemma WithoutIsAbsence(cfg: Config, children: seq<View>, v: View, j: nat)
    requires j < |children| && children[j] == v
    requires forall i :: 0 <= i < |children| && i != j ==> children[i] != v
    ensures var rest := children[..j] + children[j + 1..];
      var q := Measure(cfg, rest, None, Reset);
      Measure(cfg, children, None, Without(Reset, v)) == Measured(q.acc, q.layoutSet[..j] + [None] + q.layoutSet[j..])
  {
    var rest := children[..j] + children[j + 1..];
    var slots := Wrap(children);
    assert slots[..j] + slots[j + 1..] == Wrap(rest);
    SkippedSlotIsAbsent(cfg, Init(cfg), slots, Some(v), j);
    forall i | 0 <= i < |rest| ensures Wrap(rest)[i] != Child(v) {
      if i < j {
        assert rest[i] == children[i];
      } else {
        assert rest[i] == children[i + 1];
      }
    }
    RemovingAbsentViewIsMoot(cfg, Init(cfg), Wrap(rest), v);
  }

  datatype Dimension = Dimension(width: int, height: int)

  /** `onMeasure`: a pass at the resolved width that packs the pending view;
      while an insertion is pending the height never drops below the height
      measured before. */
  function OnMeasure(cfg: Config, width: int, children: seq<View>, pending: Option<Pending>,
                     previousHeight: int): (d: Dimension)
    ensures d.width == width
    ensures var c := cfg.(rowMaxWidth := width);
      var total := TotalHeight(c, Measure(c, children, pending, Reset).acc);
      && total <= d.height
      && (pending.Some? ==> previousHeight <= d.height)
      && (pending.None? ==> d.height == total)
      && (d.height == total || d.height == previousHeight)
  {
    var c := cfg.(rowMaxWidth := width);
    var total := TotalHeight(c, Measure(c, children, pending, Reset).acc);
    Dimension(width, if pending.Some? && previousHeight > total then previousHeight else total)
  }

  /** The measured height leaves room for every laid-out child's margin box
      and the bottom padding below it. */
  lemma MeasuredHeightCoversChildren(cfg: Config, width: int, children: seq<View>, pending: Option<Pending>,
                                     previousHeight: int)
    requires NonNegativeConfig(cfg)
    requires forall i :: 0 <= i < |children| ==> NonNegativeView(children[i])
    requires pending.Some? ==> NonNegativeView(pending.value.view)
    ensures var c := cfg.(rowMaxWidth := width);
      var m := Measure(c, children, pending, Reset);
      var d := OnMeasure(cfg, width, children, pending, previousHeight);
      forall i :: 0 <= i < |children| && m.layoutSet[i].Some? ==>
        BoxBottom(children[i], m.layoutSet[i].value) + cfg.paddingBottom <= d.height
  {
    var c := cfg.(rowMaxWidth := width);
    var slots := Slots(children, pending, Reset);
    SlotsOrder(children, pending, Reset);
    assert AllNonNegative(slots);
    TotalHeightOfPass(c, slots, None);
    var m := Measure(c, children, pending, Reset);
    forall i | 0 <= i < |children| && m.layoutSet[i].Some?
      ensures BoxBottom(children[i], m.layoutSet[i].value) + cfg.paddingBottom
              <= TotalHeight(c, m.acc)
    {
      EntryOfChild(c, children, pending, Reset, i);
      assert IsPlaced(PackSlots(c, Init(c), slots, None), SlotOf(children, pending, Reset, i));
    }
  }

  /** `onLayout`: a pass that ignores the pending view, applied to every
      child that is not GONE and has a layout. */
  function OnLayout(cfg: Config, children: seq<View>, pending: Option<Pending>): (applied: seq<Option<Layout>>)
    ensures applied == Measure(cfg, children, None, Reset).layoutSet
    ensures forall i :: 0 <= i < |children| ==> (applied[i].Some? <==> ShouldLayout(children[i]))
  {
    var layoutSet := Measure(cfg, children, pending, IgnoreAddedView(Reset)).layoutSet;
    seq(|children|, i requires 0 <= i < |children| =>
      if ShouldLayout(children[i]) && layoutSet[i].Some? then layoutSet[i] else None)
  }

  /** What holds at the head of the loop of `measure()`: `i` is the child
      index, `j` the number of slots visited (one more than `i` once the
      pending view was packed), and the state is the pass over those slots,
      with the pending view's placement left out of the layout set. */
  predicate LoopInv(cfg: Config, children: seq<View>, pending: Option<Pending>, o: Options,
                    i: int, j: int, packed: bool, hasAddedView: bool,
                    acc: Acc, placements: seq<Option<Layout>>, layoutSet: seq<Option<Layout>>)
  {
    && 0 <= i <= |children|
    && hasAddedView == (pending.Some? && !o.ignoreAddedView && !packed)
    && (packed ==> PacksPending(children, pending, o) && InsertionIndex(pending.value) <= i)
    && (PacksPending(children, pending, o) && !packed ==> i <= InsertionIndex(pending.value))
    && j == (if packed then i + 1 else i)
    && j <= |Slots(children, pending, o)|
    && PackSlots(cfg, Init(cfg), Slots(children, pending, o)[..j], o.removeView) == Pass(acc, placements)
    && layoutSet == (if packed then
                       placements[..InsertionIndex(pending.value)] + placements[InsertionIndex(pending.value) + 1..]
                     else placements)
  }

  /** The loop of `measure()` as written, revisiting index `i` after packing
      the pending view; it computes exactly `Measure`. */
  method MeasureLoop(cfg: Config, children: seq<View>, pending: Option<Pending>, o: Options)
    returns (m: Measured)
    ensures m == Measure(cfg, children, pending, o)
  {
    var count := |children|;
    var hasAddedView := pending.Some? && !o.ignoreAddedView;
    ghost var placements: seq<Option<Layout>> := [];
    ghost var packed := false;
    ghost var j := 0;
    var acc := Init(cfg);
    var layoutSet: seq<Option<Layout>> := [];
    var i := 0;
    while i < count
      invariant LoopInv(cfg, children, pending, o, i, j, packed, hasAddedView, acc, placements, layoutSet)
      decreases count - i + (if hasAddedView then 1 else 0)
    {
      if hasAddedView && i >= pending.value.position {
        PendingStep(cfg, children, pending, o, i, j, acc, placements, layoutSet);
        hasAddedView := false;
        var placed := MeasureView(cfg, acc, pending.value.view);
        acc := placed.acc;
        placements := placements + [Some(placed.layout)];
        packed := true;
        // the next iteration revisits child `i`: `measure()` decrements `i`
        // before its `for` loop increments it, so `i` is left as it is here
      } else {
        var next, entry := VisitChild(cfg, acc, children[i], o.removeView);
        ChildStep(cfg, children, pending, o, i, j, packed, hasAddedView, acc, placements, layoutSet, next, entry);
        acc := next;
        layoutSet := layoutSet + [entry];
        placements := placements + [entry];
        i := i + 1;
      }
      j := j + 1;
    }
    LoopEnd(cfg, children, pending, o, i, j, packed, hasAddedView, acc, placements, layoutSet);
    m := Measured(acc, layoutSet);
  }

  /** The `else` branch of the loop: measure the child unless it is GONE or
      is the view being removed, and record its entry. */
  method VisitChild(cfg: Config, acc: Acc, child: View, removed: Option<View>) returns (next: Acc, entry: Option<Layout>)
    ensures entry.Some? <==> ShouldLayout(child) && removed != Some(child)
    ensures Extend(cfg, Pass(acc, []), Child(child), removed) == Pass(next, [entry])
  {
    if ShouldLayout(child) && removed != Some(child) {
      var placed := MeasureView(cfg, acc, child);
      next := placed.acc;
      entry := Some(placed.layout);
    } else {
      next := acc;
      entry := None;
    }
  }

  /** The loop reaching the insertion index packs the pending view as the next
      slot and stays at the same child index. */
  lemma PendingStep(cfg: Config, children: seq<View>, pending: Option<Pending>, o: Options,
                    i: int, j: int, acc: Acc, placements: seq<Option<Layout>>, layoutSet: seq<Option<Layout>>)
    requires i < |children|
    requires LoopInv(cfg, children, pending, o, i, j, false, true, acc, placements, layoutSet)
    requires i >= pending.value.position
    ensures var mv := MeasureView(cfg, acc, pending.value.view);
      LoopInv(cfg, children, pending, o, i, j + 1, true, false, mv.acc, placements + [Some(mv.layout)], layoutSet)
  {
    var slots := Slots(children, pending, o);
    SlotsOrder(children, pending, o);
    PackNext(cfg, Init(cfg), slots, j, o.removeView);
    var mv := MeasureView(cfg, acc, pending.value.view);
    CloseGap(placements, Some(mv.layout));
  }

  /** Any other iteration visits child `i` as the next slot. */
  lemma ChildStep(cfg: Config, children: seq<View>, pending: Option<Pending>, o: Options,
                  i: int, j: int, packed: bool, hasAddedView: bool,
                  acc: Acc, placements: seq<Option<Layout>>, layoutSet: seq<Option<Layout>>,
                  next: Acc, entry: Option<Layout>)
    requires i < |children|
    requires LoopInv(cfg, children, pending, o, i, j, packed, hasAddedView, acc, placements, layoutSet)
    requires !(hasAddedView && i >= pending.value.position)
    requires Extend(cfg, Pass(acc, []), Child(children[i]), o.removeView) == Pass(next, [entry])
    ensures LoopInv(cfg, children, pending, o, i + 1, j + 1, packed, hasAddedView,
                    next, placements + [entry], layoutSet + [entry])
  {
    var slots := Slots(children, pending, o);
    SlotsOrder(children, pending, o);
    assert slots[j] == Child(children[i]);
    PackNext(cfg, Init(cfg), slots, j, o.removeView);
    ExtendAppends(cfg, Pass(acc, placements), Child(children[i]), o.removeView);
    if packed {
      GapThenEntry(placements, InsertionIndex(pending.value), entry);
    }
  }

  /** When the loop ends every slot has been visited, so the loop's result is `Measure`. */
  lemma LoopEnd(cfg: Config, children: seq<View>, pending: Option<Pending>, o: Options,
                i: int, j: int, packed: bool, hasAddedView: bool,
                acc: Acc, placements: seq<Option<Layout>>, layoutSet: seq<Option<Layout>>)
    requires i >= |children|
    requires LoopInv(cfg, children, pending, o, i, j, packed, hasAddedView, acc, placements, layoutSet)
    ensures Measure(cfg, children, pending, o) == Measured(acc, layoutSet)
  {
    var slots := Slots(children, pending, o);
    assert slots[..j] == slots;
  }

  /** `PackStep` at the prefix `slots[..j + 1]`: visiting slot `j` extends the
      pass over the slots before it. Stated on its own so that the loop
      proofs need not unfold the prefix of `Slots`. */
  lemma PackNext(cfg: Config, a: Acc, slots: seq<Slot>, j: int, removed: Option<View>)
    requires 0 <= j < |slots|
    ensures PackSlots(cfg, a, slots[..j + 1], removed)
         == Extend(cfg, PackSlots(cfg, a, slots[..j], removed), slots[j], removed)
  {
    assert slots[..j + 1][..j] == slots[..j];
    PackStep(cfg, a, slots[..j + 1], removed);
  }

  lemma CloseGap<T>(xs: seq<T>, x: T)
    ensures (xs + [x])[..|xs|] + (xs + [x])[|xs| + 1..] == xs
  {
  }

  lemma GapThenEntry<T>(xs: seq<T>, k: int, x: T)
    requires 0 <= k < |xs|
    ensures (xs + [x])[..k] + (xs + [x])[k + 1..] == xs[..k] + xs[k + 1..] + [x]
  {
    assert (xs + [x])[..k] == xs[..k];
    assert (xs + [x])[k + 1..] == xs[k + 1..] + [x];
  }
}

=== FILE: transitions.dfy ===
/**
  The animated insert and remove transitions of the wrap layout as an
  event-driven state machine. `addViewWithAnimation` and
  `removeViewWithAnimation` start animations; each animation's end is a
  later event that runs the callback the call registered for it.
 */
module Transitions {
  import opened Wrappers
  import opened Views
  import opened RowPacker
  import opened PackerGeometry
  import opened Session

  /** What a translate animation's end does besides applying its target: the
      mover of an insertion also takes its child off the insertion's waiting
      list and, when that list becomes empty, commits the insertion it captured. */
  datatype MoverKind = ForInsert(insert: Pending) | ForRemove

  /** A running translate animation of `child` toward `target`. */
  datatype Mover = Mover(child: View, target: Layout, kind: MoverKind)

  /** A running alpha animation: the fade-in of an added view toward the alpha
      it had when it was added (whose end clears the insertion guard only when
      the view went into an empty layout), or the fade-out of a removed view. */
  datatype Fade = FadeIn(view: View, alpha: real, releasesGuard: bool) | FadeOut(view: View)

  /** The layout's children, the insertion guard (`mAddedViewContainer`), the
      waiting list of the current insertion, the running animations, and the
      layout each child was last moved to by a finished mover. */
  datatype State = State(
    children: seq<View>,
    pending: Option<Pending>,
    waiting: seq<View>,
    movers: seq<Mover>,
    fades: seq<Fade>,
    placed: map<View, Layout>)

  /** The state after a call, and whether the call returned true. A call
      that ends in an exception returns nothing and is not accepted. */
  datatype Outcome = Outcome(state: State, accepted: bool)

  /** A layout with the given children and nothing in flight. */
  function Idle(children: seq<View>): State {
    State(children, None, [], [], [], map[])
  }

  /** `ViewGroup.addView(view, index)`: the view goes in at `index`; a
      negative index appends. */
  function InsertAt(s: seq<View>, index: int, v: View): (r: seq<View>)
    ensures |r| == |s| + 1
    ensures multiset(r) == multiset(s) + multiset{v}
    ensures 0 <= index <= |s| ==> r[index] == v && r[..index] == s[..index] && r[index + 1..] == s[index..]
    ensures !(0 <= index <= |s|) ==> r == s + [v]
  {
    var k := if 0 <= index <= |s| then index else |s|;
    assert s == s[..k] + s[k..];
    s[..k] + [v] + s[k..]
  }

  /** `removeView(view)` on the children and `remove(child)` on the waiting
      list: the first occurrence goes; a view that is not there changes nothing. */
  function RemoveView(s: seq<View>, v: View): (r: seq<View>)
    ensures v !in s ==> r == s
    ensures v in s ==> |r| == |s| - 1
    decreases |s|
  {
    if |s| == 0 then []
    else
      assert s == [s[0]] + s[1..];
      if s[0] == v then s[1..] else [s[0]] + RemoveView(s[1..], v)
  }

  /** Removal takes out one occurrence and keeps every other view. */
  lemma {:induction false} RemoveViewCounts(s: seq<View>, v: View)
    ensures multiset(RemoveView(s, v)) == multiset(s) - multiset{v}
    decreases |s|
  {
    if |s| > 0 {
      assert s == [s[0]] + s[1..];
      RemoveViewCounts(s[1..], v);
    }
  }

  /** Removal takes out exactly the first occurrence and keeps the order of the rest. */
  lemma {:induction false} RemoveViewAtFirst(s: seq<View>, v: View, j: nat)
    requires j < |s| && s[j] == v
    requires forall i :: 0 <= i < j ==> s[i] != v
    ensures RemoveView(s, v) == s[..j] + s[j + 1..]
    decreases |s|
  {
    if j == 0 {
      assert RemoveView(s, v) == s[1..];
    } else {
      var tail := s[1..];
      assert s[0] != v;
      assert RemoveView(s, v) == [s[0]] + RemoveView(tail, v);
      forall i | 0 <= i < j - 1 ensures tail[i] != v {
        assert tail[i] == s[i + 1];
      }
      RemoveViewAtFirst(tail, v, j - 1);
      calc {
        RemoveView(s, v);
        [s[0]] + (tail[..j - 1] + tail[j..]);
        { assert tail[..j - 1] == s[1..j]; assert tail[j..] == s[j + 1..]; }
        [s[0]] + (s[1..j] + s[j + 1..]);
        { assert [s[0]] + s[1..j] == s[..j]; }
        s[..j] + s[j + 1..];
      }
    }
  }

  /** Adding a view that is not a child and then removing it restores the children. */
  lemma InsertThenRemove(s: seq<View>, index: int, v: View)
    requires v !in s
    ensures RemoveView(InsertAt(s, index, v), v) == s
  {
    var k := if 0 <= index <= |s| then index else |s|;
    var r := InsertAt(s, index, v);
    assert r == s[..k] + [v] + s[k..];
    SpliceOut(s, k, v);
    forall i | 0 <= i < k ensures r[i] != v {
      assert s[i] in s;
    }
    RemoveViewAtFirst(r, v, k);
  }

  lemma SpliceOut<T>(s: seq<T>, k: nat, x: T)
    requires k <= |s|
    ensures var r := s[..k] + [x] + s[k..];
      && |r| == |s| + 1 && r[k] == x && r[..k] + r[k + 1..] == s
      && forall i :: 0 <= i < k ==> r[i] == s[i]
  {
    var r := s[..k] + [x] + s[k..];
    assert r[..k] == s[..k] && r[k + 1..] == s[k..];
    assert s[..k] + s[k..] == s;
  }

  /** The movers a pass over `layoutSet` starts: one per child that is not
      GONE and has a layout, in child order, toward that layout.
      (`translateAnimation` always reports that it started an animation,
      so every such child gets one, whether or not it has to move.) */
  function MoversFor(children: seq<View>, layoutSet: seq<Option<Layout>>, kind: MoverKind): (ms: seq<Mover>)
    requires |layoutSet| == |children|
    ensures |ms| <= |children|
    ensures forall j :: 0 <= j < |ms| ==> ms[j].kind == kind && ShouldLayout(ms[j].child)
    ensures forall i :: 0 <= i < |children| && ShouldLayout(children[i]) && layoutSet[i].Some? ==>
      Mover(children[i], layoutSet[i].value, kind) in ms
    ensures forall j :: 0 <= j < |ms| ==>
      exists i :: 0 <= i < |children| && children[i] == ms[j].child && layoutSet[i] == Some(ms[j].target)
    decreases |children|
  {
    if |children| == 0 then []
    else
      var n := |children|;
      var prev := MoversFor(children[..n - 1], layoutSet[..n - 1], kind);
      if ShouldLayout(children[n - 1]) && layoutSet[n - 1].Some? then
        prev + [Mover(children[n - 1], layoutSet[n - 1].value, kind)]
      else
        prev
  }

  /** The child indices that get a mover, in child order: strictly
      increasing, and holding exactly the children that are not GONE and
      have a layout. */
  function MovingIndices(children: seq<View>, layoutSet: seq<Option<Layout>>): (idx: seq<nat>)
    requires |layoutSet| == |children|
    ensures forall j :: 0 <= j < |idx| ==> idx[j] < |children|
    ensures forall j, k :: 0 <= j < k < |idx| ==> idx[j] < idx[k]
    ensures forall i :: 0 <= i < |children| ==>
      (i in idx <==> ShouldLayout(children[i]) && layoutSet[i].Some?)
    decreases |children|
  {
    if |children| == 0 then []
    else
      var n := |children|;
      var prev := MovingIndices(children[..n - 1], layoutSet[..n - 1]);
      assert forall i :: 0 <= i < n - 1 ==> children[..n - 1][i] == children[i] && layoutSet[..n - 1][i] == layoutSet[i];
      if ShouldLayout(children[n - 1]) && layoutSet[n - 1].Some? then prev + [n - 1] else prev
  }

  /** Mover `j` is the mover of child `idx[j]`, toward that child's layout. */
  predicate Follows(ms: seq<Mover>, idx: seq<nat>, children: seq<View>, layoutSet: seq<Option<Layout>>, kind: MoverKind) {
    && |ms| == |idx|
    && forall j :: 0 <= j < |ms| ==>
         && idx[j] < |children| && idx[j] < |layoutSet| && layoutSet[idx[j]].Some?
         && ms[j] == Mover(children[idx[j]], layoutSet[idx[j]].value, kind)
  }

  /** The movers correspond one to one, in order, to the moving indices: each
      child that is not GONE and has a layout gets exactly one mover, toward
      its own layout, and no other child gets any. */
  lemma {:induction false} MoversFollowIndices(children: seq<View>, layoutSet: seq<Option<Layout>>, kind: MoverKind)
    requires |layoutSet| == |children|
    ensures Follows(MoversFor(children, layoutSet, kind), MovingIndices(children, layoutSet), children, layoutSet, kind)
    decreases |children|
  {
    if |children| > 0 {
      var n := |children|;
      var cs := children[..n - 1];
      var ls := layoutSet[..n - 1];
      MoversFollowIndices(cs, ls, kind);
      var ms0 := MoversFor(cs, ls, kind);
      var idx0 := MovingIndices(cs, ls);
      FollowsPrefix(ms0, idx0, children, layoutSet, kind);
      if ShouldLayout(children[n - 1]) && layoutSet[n - 1].Some? {
        assert MoversFor(children, layoutSet, kind) == ms0 + [Mover(children[n - 1], layoutSet[n - 1].value, kind)];
        assert MovingIndices(children, layoutSet) == idx0 + [n - 1];
        FollowsAppend(ms0, idx0, children, layoutSet, kind, n - 1);
      } else {
        assert MoversFor(children, layoutSet, kind) == ms0;
        assert MovingIndices(children, layoutSet) == idx0;
      }
    }
  }

  /** A correspondence on the first children holds on all of them. */
  lemma FollowsPrefix(ms: seq<Mover>, idx: seq<nat>, children: seq<View>, layoutSet: seq<Option<Layout>>, kind: MoverKind)
    requires 0 < |children| == |layoutSet|
    requires Follows(ms, idx, children[..|children| - 1], layoutSet[..|layoutSet| - 1], kind)
    ensures Follows(ms, idx, children, layoutSet, kind)
  {
  }

  /** Adding child `i`'s mover extends a correspondence by index `i`. */
  lemma FollowsAppend(ms: seq<Mover>, idx: seq<nat>, children: seq<View>, layoutSet: seq<Option<Layout>>,
                      kind: MoverKind, i: nat)
    requires Follows(ms, idx, children, layoutSet, kind)
    requires i < |children| && i < |layoutSet| && layoutSet[i].Some?
    ensures Follows(ms + [Mover(children[i], layoutSet[i].value, kind)], idx + [i], children, layoutSet, kind)
  {
  }

  /** Children that are all GONE start no mover. */
  lemma {:induction false} NoLaidOutChildNoMovers(children: seq<View>, layoutSet: seq<Option<Layout>>, kind: MoverKind)
    requires |layoutSet| == |children|
    ensures (forall i :: 0 <= i < |children| ==> !ShouldLayout(children[i])) ==>
      MoversFor(children, layoutSet, kind) == []
    decreases |children|
  {
    if |children| > 0 && forall i :: 0 <= i < |children| ==> !ShouldLayout(children[i]) {
      var n := |children|;
      assert !ShouldLayout(children[n - 1]);
      NoLaidOutChildNoMovers(children[..n - 1], layoutSet[..n - 1], kind);
    }
  }

  /** The children of a list of movers, in order: the waiting list of an insertion. */
  function MoverChildren(ms: seq<Mover>): (cs: seq<View>)
    ensures |cs| == |ms| && forall j :: 0 <= j < |ms| ==> cs[j] == ms[j].child
  {
    seq(|ms|, j requires 0 <= j < |ms| => ms[j].child)
  }

  /** The children of the running movers of an insertion, with multiplicity. */
  function InsertChildren(ms: seq<Mover>): multiset<View>
    decreases |ms|
  {
    if |ms| == 0 then multiset{} else InsertChildren(ms[..|ms| - 1]) + Counted(ms[|ms| - 1])
  }

  /** What one mover adds to the count: its child, for an insertion's mover. */
  function Counted(m: Mover): multiset<View> {
    if m.kind.ForInsert? then multiset{m.child} else multiset{}
  }

  predicate Releases(f: Fade) {
    f.FadeIn? && f.releasesGuard
  }

  /** How many running fades clear the insertion guard when they end. */
  function ReleasingFades(fs: seq<Fade>): nat
    decreases |fs|
  {
    if |fs| == 0 then 0
    else ReleasingFades(fs[..|fs| - 1]) + (if Releases(fs[|fs| - 1]) then 1 else 0)
  }

  /** What every reachable state keeps: the waiting list holds exactly the
      children of the running insertion movers; every insertion mover belongs
      to the insertion the guard holds; at most one fade releases the guard,
      and only while the guard is held and no insertion mover runs; with the
      guard free, no insertion mover runs. */
  predicate Inv(s: State) {
    && multiset(s.waiting) == InsertChildren(s.movers)
    && (forall j :: 0 <= j < |s.movers| && s.movers[j].kind.ForInsert? ==>
          s.pending == Some(s.movers[j].kind.insert))
    && ReleasingFades(s.fades) <= 1
    && (ReleasingFades(s.fades) == 1 ==> s.pending.Some? && InsertChildren(s.movers) == multiset{})
    && (s.pending.None? ==> InsertChildren(s.movers) == multiset{})
  }

  /** The movers an insertion of `p` starts, toward the default-mode pass
      taken while `p` is pending (which packs `p` only when its position is
      below the child count). */
  function InsertMovers(cfg: Config, children: seq<View>, p: Pending): seq<Mover> {
    MoversFor(children, Measure(cfg, children, Some(p), Reset).layoutSet, ForInsert(p))
  }

  /** Every child that is not GONE gets an insertion mover toward its layout
      in the default-mode pass taken while `p` is pending; there are none
      exactly when every child is GONE. */
  lemma InsertMoversAim(cfg: Config, children: seq<View>, p: Pending)
    ensures var ms := InsertMovers(cfg, children, p);
      && (forall j :: 0 <= j < |ms| ==> ms[j].kind == ForInsert(p) && ShouldLayout(ms[j].child))
      && (forall i :: 0 <= i < |children| && ShouldLayout(children[i]) ==>
            Mover(children[i], Measure(cfg, children, Some(p), Reset).layoutSet[i].value, ForInsert(p)) in ms)
      && (|ms| == 0 <==> forall i :: 0 <= i < |children| ==> !ShouldLayout(children[i]))
  {
    NoLaidOutChildNoMovers(children, Measure(cfg, children, Some(p), Reset).layoutSet, ForInsert(p));
  }

  /** The movers a removal of `view` starts, toward a pass without `view`
      that still packs any pending insertion. */
  function RemoveMovers(cfg: Config, children: seq<View>, pending: Option<Pending>, view: View): seq<Mover> {
    MoversFor(children, Measure(cfg, children, pending, Without(Reset, view)).layoutSet, ForRemove)
  }

  /** Every other child that is not GONE gets a removal mover toward its
      layout in the pass without `view`, and `view` itself gets none. */
  lemma RemoveMoversAim(cfg: Config, children: seq<View>, pending: Option<Pending>, view: View)
    ensures var ms := RemoveMovers(cfg, children, pending, view);
      && (forall j :: 0 <= j < |ms| ==>
            ms[j].kind == ForRemove && ShouldLayout(ms[j].child) && ms[j].child != view)
      && (forall i :: 0 <= i < |children| && ShouldLayout(children[i]) && children[i] != view ==>
            Mover(children[i], Measure(cfg, children, pending, Without(Reset, view)).layoutSet[i].value, ForRemove) in ms)
  {
    var ms := RemoveMovers(cfg, children, pending, view);
    assert forall j :: 0 <= j < |ms| ==> ms[j].child != view;
  }

  /** `addViewWithAnimation(view, position)`, where `alpha` is the view's
      alpha at the call. Refused while an insertion is pending. Into an empty
      layout the view is added at once and fades in, and the guard stays
      until that fade ends; at a positive index there `addView` throws.
      Otherwise the default-mode pass taken while the insertion is pending
      gives every laid-out child a mover toward its new place and puts them
      all on a fresh waiting list; the view is added when the last of them ends. */
  function Add(cfg: Config, s: State, view: View, position: int, alpha: real): (o: Outcome)
    ensures o.accepted <==> s.pending.None? && (|s.children| > 0 || position <= 0)
    ensures s.pending.Some? ==> o.state == s
    ensures s.pending.None? ==>
      && o.state.pending == Some(Pending(view, position, alpha))
      && o.state.placed == s.placed
    // Into an empty layout at a positive index, `addView` throws after the
    // guard is taken: nothing else changes and the guard stays held.
    ensures s.pending.None? && |s.children| == 0 && position > 0 ==>
      o.state == s.(pending := Some(Pending(view, position, alpha)))
    ensures o.accepted && |s.children| == 0 ==>
      && o.state.children == [view]
      && o.state.waiting == s.waiting
      && o.state.movers == s.movers
      && o.state.fades == s.fades + [FadeIn(view, alpha, true)]
    ensures o.accepted && |s.children| > 0 ==>
      var ms := InsertMovers(cfg, s.children, Pending(view, position, alpha));
      && o.state.children == s.children
      && o.state.fades == s.fades
      && o.state.movers == s.movers + ms
      && o.state.waiting == MoverChildren(ms)
  {
    if s.pending.Some? then Outcome(s, false)
    else
      var p := Pending(view, position, alpha);
      if |s.children| == 0 && position > 0 then
        Outcome(s.(pending := Some(p)), false)
      else if |s.children| == 0 then
        Outcome(s.(children := InsertAt(s.children, position, view), pending := Some(p),
                   fades := s.fades + [FadeIn(view, alpha, true)]), true)
      else
        var ms := InsertMovers(cfg, s.children, p);
        Outcome(s.(pending := Some(p), waiting := MoverChildren(ms), movers := s.movers + ms), true)
  }

  /** `removeViewWithAnimation(view)`: always accepted, whether or not an
      insertion is pending and whether or not `view` is a child; it starts
      the removal's movers and fades `view` out, and changes nothing else. */
  function Remove(cfg: Config, s: State, view: View): (o: Outcome)
    ensures o.accepted
    ensures o.state.children == s.children && o.state.pending == s.pending
    ensures o.state.waiting == s.waiting && o.state.placed == s.placed
    ensures o.state.fades == s.fades + [FadeOut(view)]
    ensures o.state.movers == s.movers + RemoveMovers(cfg, s.children, s.pending, view)
  {
    var ms := RemoveMovers(cfg, s.children, s.pending, view);
    Outcome(s.(movers := s.movers + ms, fades := s.fades + [FadeOut(view)]), true)
  }

  /** The end of mover `i`: its child is laid out at its target. A removal's
      mover does nothing more. An insertion's mover takes its child off the
      waiting list; if the list is then empty it clears the guard, adds the
      captured view at the captured position and fades it in. */
  function MoverEnd(s: State, i: nat): (t: State)
    requires i < |s.movers|
    ensures t.movers == s.movers[..i] + s.movers[i + 1..]
    ensures t.placed == s.placed[s.movers[i].child := s.movers[i].target]
    ensures s.movers[i].kind.ForRemove? ==> t == s.(movers := t.movers, placed := t.placed)
    ensures s.movers[i].kind.ForInsert? ==>
      var p := s.movers[i].kind.insert;
      && multiset(t.waiting) == multiset(s.waiting) - multiset{s.movers[i].child}
      && (|t.waiting| == 0 ==>
            && t.pending == None
            && t.children == InsertAt(s.children, p.position, p.view)
            && t.fades == s.fades + [FadeIn(p.view, p.alpha, false)])
      && (|t.waiting| > 0 ==>
            t.pending == s.pending && t.children == s.children && t.fades == s.fades)
  {
    var m := s.movers[i];
    var rest := s.movers[..i] + s.movers[i + 1..];
    var placed := s.placed[m.child := m.target];
    match m.kind
    case ForRemove => s.(movers := rest, placed := placed)
    case ForInsert(p) =>
      RemoveViewCounts(s.waiting, m.child);
      var waiting := RemoveView(s.waiting, m.child);
      if |waiting| == 0 then
        s.(children := InsertAt(s.children, p.position, p.view), pending := None, waiting := waiting,
           movers := rest, fades := s.fades + [FadeIn(p.view, p.alpha, false)], placed := placed)
      else
        s.(waiting := waiting, movers := rest, placed := placed)
  }

  /** The end of fade `i`. A fade-in of a view added to an empty layout clears
      the guard; a fade-in after a commit does nothing; a fade-out removes its
      view from the children, whether or not the movers started with it have
      ended. */
  function FadeEnd(s: State, i: nat): (t: State)
    requires i < |s.fades|
    ensures t.fades == s.fades[..i] + s.fades[i + 1..]
    ensures t.movers == s.movers && t.waiting == s.waiting && t.placed == s.placed
    ensures s.fades[i].FadeOut? ==>
      t.children == RemoveView(s.children, s.fades[i].view) && t.pending == s.pending
    ensures s.fades[i].FadeIn? ==> t.children == s.children
    ensures s.fades[i].FadeIn? ==> (t.pending == None <==> Releases(s.fades[i]) || s.pending == None)
    ensures s.fades[i].FadeIn? && !Releases(s.fades[i]) ==> t.pending == s.pending
  {
    var rest := s.fades[..i] + s.fades[i + 1..];
    match s.fades[i]
    case FadeIn(_, _, releases) =>
      if releases then s.(pending := None, fades := rest) else s.(fades := rest)
    case FadeOut(v) => s.(children := RemoveView(s.children, v), fades := rest)
  }

  datatype Event =
    | AddCall(view: View, position: int, alpha: real)
    | RemoveCall(view: View)
    | MoverDone(mover: nat)
    | FadeDone(fade: nat)

  /** One event; the end of an animation that is not running changes nothing. */
  function Step(cfg: Config, s: State, e: Event): State {
    match e
    case AddCall(v, position, alpha) => Add(cfg, s, v, position, alpha).state
    case RemoveCall(v) => Remove(cfg, s, v).state
    case MoverDone(i) => if i < |s.movers| then MoverEnd(s, i) else s
    case FadeDone(i) => if i < |s.fades| then FadeEnd(s, i) else s
  }

  function Run(cfg: Config, s: State, es: seq<Event>): State
    decreases |es|
  {
    if |es| == 0 then s else Run(cfg, Step(cfg, s, es[0]), es[1..])
  }

  // ---------------------------------------------------------------------
  // Counting lemmas
  // ---------------------------------------------------------------------

  lemma ReleasingFadesAppend(fs: seq<Fade>, f: Fade)
    ensures ReleasingFades(fs + [f]) == ReleasingFades(fs) + (if Releases(f) then 1 else 0)
  {
    assert (fs + [f])[..|fs|] == fs;
  }

  lemma {:induction false} InsertChildrenConcat(a: seq<Mover>, b: seq<Mover>)
    ensures InsertChildren(a + b) == InsertChildren(a) + InsertChildren(b)
    decreases |b|
  {
    if |b| > 0 {
      assert (a + b)[..|a + b| - 1] == a + b[..|b| - 1];
      InsertChildrenConcat(a, b[..|b| - 1]);
    } else {
      assert a + b == a;
    }
  }

  /** Taking mover `i` out of the list takes its child out of the count. */
  lemma {:induction false} InsertChildrenWithout(ms: seq<Mover>, i: nat)
    requires i < |ms|
    ensures InsertChildren(ms) == InsertChildren(ms[..i] + ms[i + 1..]) + Counted(ms[i])
    decreases |ms|
  {
    var n := |ms|;
    var rest := ms[..i] + ms[i + 1..];
    if i == n - 1 {
      DropLast(ms);
    } else {
      var pre := ms[..n - 1];
      var shorter := pre[..i] + pre[i + 1..];
      DropBeforeLast(ms, i);
      InsertChildrenWithout(pre, i);
      assert InsertChildren(rest) == InsertChildren(shorter) + Counted(ms[n - 1]);
      assert InsertChildren(ms) == InsertChildren(shorter) + Counted(ms[i]) + Counted(ms[n - 1]);
      SwapLast(InsertChildren(shorter), Counted(ms[i]), Counted(ms[n - 1]));
    }
  }

  lemma DropLast<T>(s: seq<T>)
    requires |s| > 0
    ensures s[..|s| - 1] + s[|s|..] == s[..|s| - 1]
  {
  }

  lemma SwapLast<T>(a: multiset<T>, b: multiset<T>, c: multiset<T>)
    ensures a + b + c == a + c + b
  {
  }

  /** The count is empty exactly when no insertion mover runs. */
  lemma {:induction false} InsertChildrenEmpty(ms: seq<Mover>)
    ensures InsertChildren(ms) == multiset{} <==> forall j :: 0 <= j < |ms| ==> !ms[j].kind.ForInsert?
    decreases |ms|
  {
    if |ms| > 0 {
      var n := |ms|;
      var pre := ms[..n - 1];
      InsertChildrenEmpty(pre);
      assert forall j :: 0 <= j < n - 1 ==> pre[j] == ms[j];
    }
  }

  /** The movers of one insertion are counted by their children. */
  lemma {:induction false} InsertMoversCounted(ms: seq<Mover>, p: Pending)
    requires forall j :: 0 <= j < |ms| ==> ms[j].kind == ForInsert(p)
    ensures InsertChildren(ms) == multiset(MoverChildren(ms))
    decreases |ms|
  {
    if |ms| > 0 {
      var n := |ms|;
      InsertMoversCounted(ms[..n - 1], p);
      assert MoverChildren(ms) == MoverChildren(ms[..n - 1]) + [ms[n - 1].child];
    }
  }

  /** Taking fade `i` out of the list takes it out of the count. */
  lemma {:induction false} ReleasingFadesWithout(fs: seq<Fade>, i: nat)
    requires i < |fs|
    ensures ReleasingFades(fs) == ReleasingFades(fs[..i] + fs[i + 1..]) + (if Releases(fs[i]) then 1 else 0)
    decreases |fs|
  {
    var n := |fs|;
    var rest := fs[..i] + fs[i + 1..];
    if i == n - 1 {
      assert rest == fs[..n - 1];
    } else {
      var pre := fs[..n - 1];
      DropBeforeLast(fs, i);
      ReleasingFadesWithout(pre, i);
    }
  }

  // ---------------------------------------------------------------------
  // The invariant
  // ---------------------------------------------------------------------

  lemma AddKeepsInv(cfg: Config, s: State, view: View, position: int, alpha: real)
    requires Inv(s)
    ensures Inv(Add(cfg, s, view, position, alpha).state)
  {
    if s.pending.None? {
      if |s.children| == 0 {
        AddToEmptyKeepsInv(cfg, s, view, position, alpha);
      } else {
        AddToChildrenKeepsInv(cfg, s, view, position, alpha);
      }
    }
  }

  lemma AddToEmptyKeepsInv(cfg: Config, s: State, view: View, position: int, alpha: real)
    requires Inv(s) && s.pending.None? && |s.children| == 0
    ensures Inv(Add(cfg, s, view, position, alpha).state)
  {
    var t := Add(cfg, s, view, position, alpha).state;
    InsertChildrenEmpty(s.movers);
    if position > 0 {
      assert t == s.(pending := Some(Pending(view, position, alpha)));
      return;
    }
    ReleasingFadesAppend(s.fades, FadeIn(view, alpha, true));
    assert t.fades == s.fades + [FadeIn(view, alpha, true)];
    assert t.movers == s.movers && t.waiting == s.waiting;
  }

  lemma AddToChildrenKeepsInv(cfg: Config, s: State, view: View, position: int, alpha: real)
    requires Inv(s) && s.pending.None? && |s.children| > 0
    ensures Inv(Add(cfg, s, view, position, alpha).state)
  {
    var p := Pending(view, position, alpha);
    InsertMoversAim(cfg, s.children, p);
    StartInsertKeepsInv(s, p, InsertMovers(cfg, s.children, p));
  }

  /** Starting the movers of an insertion while the guard is free keeps the invariant. */
  lemma StartInsertKeepsInv(s: State, p: Pending, ms: seq<Mover>)
    requires Inv(s) && s.pending.None?
    requires forall j :: 0 <= j < |ms| ==> ms[j].kind == ForInsert(p)
    ensures Inv(s.(pending := Some(p), waiting := MoverChildren(ms), movers := s.movers + ms))
  {
    var t := s.(pending := Some(p), waiting := MoverChildren(ms), movers := s.movers + ms);
    InsertChildrenEmpty(s.movers);
    InsertMoversCounted(ms, p);
    InsertChildrenConcat(s.movers, ms);
    forall j | 0 <= j < |t.movers| && t.movers[j].kind.ForInsert?
      ensures t.pending == Some(t.movers[j].kind.insert)
    {
      if j >= |s.movers| {
        assert t.movers[j] == ms[j - |s.movers|];
      }
    }
  }

  lemma RemoveKeepsInv(cfg: Config, s: State, view: View)
    requires Inv(s)
    ensures Inv(Remove(cfg, s, view).state)
  {
    RemoveMoversAim(cfg, s.children, s.pending, view);
    StartRemovalKeepsInv(s, RemoveMovers(cfg, s.children, s.pending, view), view);
  }

  /** A removal's movers do not count toward the waiting list. */
  lemma RemovalMoversCountNothing(movers: seq<Mover>, ms: seq<Mover>)
    requires forall j :: 0 <= j < |ms| ==> ms[j].kind == ForRemove
    ensures InsertChildren(movers + ms) == InsertChildren(movers)
  {
    InsertChildrenEmpty(ms);
    InsertChildrenConcat(movers, ms);
  }

  lemma StartRemovalKeepsInv(s: State, ms: seq<Mover>, view: View)
    requires Inv(s)
    requires forall j :: 0 <= j < |ms| ==> ms[j].kind == ForRemove
    ensures Inv(s.(movers := s.movers + ms, fades := s.fades + [FadeOut(view)]))
  {
    var t := s.(movers := s.movers + ms, fades := s.fades + [FadeOut(view)]);
    RemovalMoversCountNothing(s.movers, ms);
    ReleasingFadesAppend(s.fades, FadeOut(view));
    forall j | 0 <= j < |t.movers| && t.movers[j].kind.ForInsert?
      ensures t.pending == Some(t.movers[j].kind.insert)
    {
      assert t.movers[j] == s.movers[j];
    }
  }

  /** The movers left after mover `i` ends, each at its old index. */
  lemma OtherMovers(s: State, i: nat, j: nat)
    requires i < |s.movers| && j < |s.movers| - 1
    ensures MoverEnd(s, i).movers[j] == s.movers[if j < i then j else j + 1]
  {
  }

  lemma MoverEndKeepsInv(s: State, i: nat)
    requires Inv(s) && i < |s.movers|
    ensures Inv(MoverEnd(s, i))
  {
    if s.movers[i].kind.ForRemove? {
      RemovalMoverEndKeepsInv(s, i);
    } else if |MoverEnd(s, i).waiting| == 0 {
      CommitKeepsInv(s, i);
    } else {
      InsertMoverEndKeepsInv(s, i);
    }
  }

  lemma RemovalMoverEndKeepsInv(s: State, i: nat)
    requires Inv(s) && i < |s.movers| && s.movers[i].kind.ForRemove?
    ensures Inv(MoverEnd(s, i))
  {
    var t := MoverEnd(s, i);
    InsertChildrenWithout(s.movers, i);
    forall j | 0 <= j < |t.movers| && t.movers[j].kind.ForInsert?
      ensures t.pending == Some(t.movers[j].kind.insert)
    {
      OtherMovers(s, i, j);
    }
  }

  lemma InsertMoverEndKeepsInv(s: State, i: nat)
    requires Inv(s) && i < |s.movers| && s.movers[i].kind.ForInsert?
    requires |MoverEnd(s, i).waiting| > 0
    ensures Inv(MoverEnd(s, i))
  {
    var t := MoverEnd(s, i);
    TakeOffWaiting(s.waiting, s.movers, i);
    assert t.waiting == RemoveView(s.waiting, s.movers[i].child);
    assert t.pending == s.pending && t.fades == s.fades;
    forall j | 0 <= j < |t.movers| && t.movers[j].kind.ForInsert?
      ensures t.pending == Some(t.movers[j].kind.insert)
    {
      OtherMovers(s, i, j);
    }
  }

  /** Taking an insertion mover's child off the waiting list keeps the list
      counting exactly the insertion movers left. */
  lemma TakeOffWaiting(waiting: seq<View>, ms: seq<Mover>, i: nat)
    requires i < |ms| && ms[i].kind.ForInsert?
    requires multiset(waiting) == InsertChildren(ms)
    ensures multiset(RemoveView(waiting, ms[i].child)) == InsertChildren(ms[..i] + ms[i + 1..])
    ensures InsertChildren(ms) != multiset{}
  {
    var c := ms[i].child;
    var rest := InsertChildren(ms[..i] + ms[i + 1..]);
    InsertChildrenWithout(ms, i);
    assert Counted(ms[i]) == multiset{c};
    RemoveViewCounts(waiting, c);
    AddThenTake(rest, c);
  }

  lemma AddThenTake<T>(a: multiset<T>, x: T)
    ensures a + multiset{x} - multiset{x} == a
    ensures a + multiset{x} != multiset{}
  {
    assert x in a + multiset{x};
  }

  lemma CommitKeepsInv(s: State, i: nat)
    requires Inv(s) && i < |s.movers| && s.movers[i].kind.ForInsert?
    requires |MoverEnd(s, i).waiting| == 0
    ensures Inv(MoverEnd(s, i))
  {
    var t := MoverEnd(s, i);
    var p := s.movers[i].kind.insert;
    InsertChildrenWithout(s.movers, i);
    assert InsertChildren(t.movers) == multiset{};
    InsertChildrenEmpty(t.movers);
    InsertChildrenEmpty(s.movers);
    ReleasingFadesAppend(s.fades, FadeIn(p.view, p.alpha, false));
  }

  lemma FadeEndKeepsInv(s: State, i: nat)
    requires Inv(s) && i < |s.fades|
    ensures Inv(FadeEnd(s, i))
  {
    ReleasingFadesWithout(s.fades, i);
    InsertChildrenEmpty(s.movers);
  }

  /** Every event keeps the invariant. */
  lemma StepKeepsInv(cfg: Config, s: State, e: Event)
    requires Inv(s)
    ensures Inv(Step(cfg, s, e))
  {
    var t := Step(cfg, s, e);
    match e
    case AddCall(v, position, alpha) =>
      AddKeepsInv(cfg, s, v, position, alpha);
      assert t == Add(cfg, s, v, position, alpha).state;
    case RemoveCall(v) =>
      RemoveKeepsInv(cfg, s, v);
      assert t == Remove(cfg, s, v).state;
    case MoverDone(i) =>
      if i < |s.movers| {
        MoverEndKeepsInv(s, i);
        assert t == MoverEnd(s, i);
      } else {
        assert t == s;
      }
    case FadeDone(i) =>
      if i < |s.fades| {
        FadeEndKeepsInv(s, i);
        assert t == FadeEnd(s, i);
      } else {
        assert t == s;
      }
  }

  /** Every run of events from a state with the invariant keeps it. */
  lemma {:induction false} RunKeepsInv(cfg: Config, s: State, es: seq<Event>)
    requires Inv(s)
    ensures Inv(Run(cfg, s, es))
    decreases |es|
  {
    if |es| > 0 {
      StepKeepsInv(cfg, s, es[0]);
      RunKeepsInv(cfg, Step(cfg, s, es[0]), es[1..]);
    }
  }

  lemma IdleHasInv(children: seq<View>)
    ensures Inv(Idle(children))
  {
  }

  /** Every state reached from an idle layout keeps the invariant. */
  lemma IdleRunKeepsInv(cfg: Config, children: seq<View>, es: seq<Event>)
    ensures Inv(Run(cfg, Idle(children), es))
  {
    IdleHasInv(children);
    RunKeepsInv(cfg, Idle(children), es);
  }

  // ---------------------------------------------------------------------
  // Insertion
  // ---------------------------------------------------------------------

  /** Whatever order the movers of an insertion end in, the insertion commits
      at the end of the last one and at no other: the guard is cleared, the
      captured view is added at the captured position once, and it fades in
      toward the alpha it had when it was added. */
  lemma LastMoverCommits(s: State, i: nat)
    requires Inv(s) && i < |s.movers| && s.movers[i].kind.ForInsert?
    ensures var t := MoverEnd(s, i);
      var p := s.pending.value;
      && s.pending.Some?
      && (t.pending == None <==> |InsertChildren(s.movers)| == 1)
      && (t.pending == None ==>
            && t.children == InsertAt(s.children, p.position, p.view)
            && t.fades == s.fades + [FadeIn(p.view, p.alpha, false)])
      && (t.pending != None ==> t.pending == s.pending && t.children == s.children)
  {
    var t := MoverEnd(s, i);
    InsertChildrenWithout(s.movers, i);
    assert |multiset(t.waiting)| == |multiset(s.waiting)| - 1;
  }

  /** Only two events clear the guard: the end of an insertion's last mover,
      and the end of the fade-in of a view added to an empty layout. */
  lemma GuardClearedOnlyByCommitOrFade(cfg: Config, s: State, e: Event)
    requires Inv(s) && s.pending.Some? && Step(cfg, s, e).pending.None?
    ensures || (e.MoverDone? && e.mover < |s.movers| && s.movers[e.mover].kind.ForInsert?
                && |InsertChildren(s.movers)| == 1)
            || (e.FadeDone? && e.fade < |s.fades| && Releases(s.fades[e.fade]))
  {
    if e.MoverDone? {
      LastMoverCommits(s, e.mover);
    }
  }

  /** The guard is held, no insertion mover runs and no fade will clear it. */
  predicate Stalled(s: State) {
    && s.pending.Some?
    && InsertChildren(s.movers) == multiset{}
    && ReleasingFades(s.fades) == 0
  }

  /** Adding to a layout whose children are all GONE starts no mover, so
      nothing will ever add the view or clear the guard. */
  lemma NothingToMoveStalls(cfg: Config, s: State, view: View, position: int, alpha: real)
    requires Inv(s) && s.pending.None? && |s.children| > 0
    requires forall i :: 0 <= i < |s.children| ==> !ShouldLayout(s.children[i])
    ensures Add(cfg, s, view, position, alpha).accepted
    ensures Stalled(Add(cfg, s, view, position, alpha).state)
  {
    var t := Add(cfg, s, view, position, alpha).state;
    var ms := InsertMovers(cfg, s.children, Pending(view, position, alpha));
    InsertMoversAim(cfg, s.children, Pending(view, position, alpha));
    assert t.movers == s.movers + ms == s.movers;
    InsertChildrenEmpty(s.movers);
    assert ReleasingFades(s.fades) == 0;
  }

  /** Adding to an empty layout at a positive index throws in `addView` after
      the guard is taken, so nothing will ever clear the guard. */
  lemma EmptyInsertPastEndStalls(cfg: Config, s: State, view: View, position: int, alpha: real)
    requires Inv(s) && s.pending.None? && |s.children| == 0 && position > 0
    ensures !Add(cfg, s, view, position, alpha).accepted
    ensures Stalled(Add(cfg, s, view, position, alpha).state)
  {
  }

  /** A stalled layout stays stalled whatever happens next. */
  lemma StalledStep(cfg: Config, s: State, e: Event)
    requires Stalled(s)
    ensures Stalled(Step(cfg, s, e))
  {
    InsertChildrenEmpty(s.movers);
    match e
    case AddCall(v, position, alpha) =>
    case RemoveCall(v) =>
      RemoveMoversAim(cfg, s.children, s.pending, v);
      RemovalMoversCountNothing(s.movers, RemoveMovers(cfg, s.children, s.pending, v));
      ReleasingFadesAppend(s.fades, FadeOut(v));
    case MoverDone(i) =>
      if i < |s.movers| {
        InsertChildrenWithout(s.movers, i);
      }
    case FadeDone(i) =>
      if i < |s.fades| {
        ReleasingFadesWithout(s.fades, i);
      }
  }

  /** Once stalled, every later insertion is refused, forever. */
  lemma {:induction false} StalledForever(cfg: Config, s: State, es: seq<Event>, view: View, position: int, alpha: real)
    requires Stalled(s)
    ensures Stalled(Run(cfg, s, es))
    ensures !Add(cfg, Run(cfg, s, es), view, position, alpha).accepted
    decreases |es|
  {
    if |es| > 0 {
      StalledStep(cfg, s, es[0]);
      StalledForever(cfg, Step(cfg, s, es[0]), es[1..], view, position, alpha);
    }
  }

  /** Adding to an empty layout adds the view at once while the guard is
      still held; if the position is not past the end, every pass until the
      fade-in ends packs the view twice: as the pending view and as a child. */
  lemma EmptyInsertPacksTwice(cfg: Config, s: State, view: View, position: int, alpha: real)
    requires s.pending.None? && |s.children| == 0 && position <= 0
    ensures var t := Add(cfg, s, view, position, alpha).state;
      Slots(t.children, t.pending, Reset) == [Inserted(view), Child(view)]
  {
    PackedTwice(Pending(view, position, alpha));
  }

  lemma PackedTwice(p: Pending)
    requires p.position <= 0
    ensures Slots([p.view], Some(p), Reset) == [Inserted(p.view), Child(p.view)]
  {
    assert PacksPending([p.view], Some(p), Reset);
    assert [p.view][..0] == [] && [p.view][0..] == [p.view];
  }

  /** For a position inside the children and a view that is not GONE, the
      movers carry every child exactly to where the layout after the commit
      puts it, and the content height does not change at the commit. */
  lemma InsertTargetsMatchFinalLayout(cfg: Config, children: seq<View>, p: Pending)
    requires 0 <= p.position < |children| && ShouldLayout(p.view)
    ensures var before := Measure(cfg, children, Some(p), Reset);
      var after := Measure(cfg, InsertAt(children, p.position, p.view), None, Reset);
      var k := p.position;
      && after.acc == before.acc
      && after.layoutSet[..k] == before.layoutSet[..k]
      && after.layoutSet[k + 1..] == before.layoutSet[k..]
  {
    var k := p.position;
    var xs := Slots(children, Some(p), Reset);
    PackedAsCommitted(cfg, children, p);
    assert PacksPending(children, Some(p), Reset) && InsertionIndex(p) == k;
    var ps := PackSlots(cfg, Init(cfg), xs, None).placements;
    assert (ps[..k] + ps[k + 1..])[..k] == ps[..k];
    assert (ps[..k] + ps[k + 1..])[k..] == ps[k + 1..];
  }

  /** Packing the pending view at its position is the same pass as packing
      the children once the view has been inserted there. */
  lemma PackedAsCommitted(cfg: Config, children: seq<View>, p: Pending)
    requires 0 <= p.position < |children| && ShouldLayout(p.view)
    ensures PackSlots(cfg, Init(cfg), Slots(children, Some(p), Reset), None)
         == PackSlots(cfg, Init(cfg), Slots(InsertAt(children, p.position, p.view), None, Reset), None)
  {
    var k := p.position;
    var grown := InsertAt(children, k, p.view);
    var xs := Slots(children, Some(p), Reset);
    var ys := Slots(grown, None, Reset);
    SlotsOrder(children, Some(p), Reset);
    SlotsOrder(grown, None, Reset);
    forall i | 0 <= i < |xs|
      ensures xs[i].view == ys[i].view && (Participates(xs[i], None) <==> Participates(ys[i], None))
    {
      if i < k {
        assert grown[i] == children[i];
      } else if i > k {
        assert grown[i] == children[i - 1];
      }
    }
    SameViewsSamePass(cfg, Init(cfg), xs, ys, None);
  }

  /** A negative position packs the pending view in front of every child,
      so the movers make room at the start of the first row, while the view
      is then appended after the last child. */
  lemma NegativePositionMismatch(children: seq<View>, p: Pending)
    requires p.position < 0 && |children| > 0
    ensures PacksPending(children, Some(p), Reset)
    ensures Slots(children, Some(p), Reset)[0] == Inserted(p.view)
    ensures InsertAt(children, p.position, p.view) == children + [p.view]
  {
    SlotsOrder(children, Some(p), Reset);
  }

  // ---------------------------------------------------------------------
  // Removal
  // ---------------------------------------------------------------------

  /** With no insertion pending and `view` a child once, the movers of a
      removal carry every other child exactly to where the layout after the
      fade-out puts it. */
  lemma RemoveTargetsMatchFinalLayout(cfg: Config, children: seq<View>, view: View, j: nat)
    requires j < |children| && children[j] == view
    requires forall i :: 0 <= i < |children| && i != j ==> children[i] != view
    ensures var during := Measure(cfg, children, None, Without(Reset, view));
      var after := Measure(cfg, RemoveView(children, view), None, Reset);
      && during.acc == after.acc
      && during.layoutSet == after.layoutSet[..j] + [None] + after.layoutSet[j..]
  {
    RemoveViewAtFirst(children, view, j);
    WithoutIsAbsence(cfg, children, view, j);
  }

  /** A removal fades its view out and removes it from the children exactly
      once, at the fade-out's end, whether or not an insertion is pending and
      whatever its movers are doing. */
  lemma RemovalCompletesOnFadeOut(cfg: Config, s: State, view: View)
    ensures var t := Remove(cfg, s, view).state;
      var i := |s.fades|;
      && i < |t.fades| && t.fades[i] == FadeOut(view)
      && FadeEnd(t, i).children == RemoveView(s.children, view)
      && FadeEnd(t, i).pending == s.pending
      && FadeEnd(t, i).movers == t.movers
  {
  }
}

=== FILE: views.dfy ===
/**
  Child views as the wrap layout sees them: the size the host measured, the
  margin layout parameters (absent when the view has none), and visibility.
 */
module Views {
  import opened Wrappers

  datatype Visibility = Visible | Invisible | Gone

  datatype Margins = Margins(left: int, top: int, right: int, bottom: int)

  /** A child view. `id` stands for object identity: distinct views are distinct records. */
  datatype View = View(
    id: nat,
    measuredWidth: int,
    measuredHeight: int,
    params: Option<Margins>,
    visibility: Visibility)

  /** The rectangle computed for one view by one layout pass. */
  datatype Layout = Layout(l: int, t: int, r: int, b: int)

  /** A view takes part in layout unless it is GONE; INVISIBLE views still take space. */
  predicate ShouldLayout(v: View) {
    v.visibility != Gone
  }

  /** The margins a view is laid out with: all zero when it carries no layout parameters. */
  function MarginsOf(v: View): Margins {
    match v.params
    case None => Margins(0, 0, 0, 0)
    case Some(m) => m
  }

  predicate NonNegativeView(v: View) {
    var m := MarginsOf(v);
    && v.measuredWidth >= 0
    && v.measuredHeight >= 0
    && m.left >= 0 && m.top >= 0 && m.right >= 0 && m.bottom >= 0
  }
}

=== FILE: wrappers.dfy ===
/** The optional value used wherever the layout code uses a nullable reference. */
module Wrappers {

  datatype Option<+T> = None | Some(value: T)
}
